=== FILE: README.md ===
# lsp-rocks core, modelled in Dafny

lsp-rocks connects an Emacs process to Language Server Protocol servers. Emacs
sends `{id, cmd, params}` messages over an EPC (s-expression RPC) channel. The
Node side keeps one `LanguageClient` per server. It routes each command to the
client feature that handles it, drops answers that newer messages of the same
command have made stale, and sends the rest back to Emacs.

This project models that core as pure functions over immutable records. Every
`await` becomes a parameter that says how the awaited call settled: a
`Reply<T>` that is `Rejected(error)` or `Resolved(value)`, with `None` standing
for `null`/`undefined`. The modules follow the source files.

| module | file | what it holds |
|---|---|---|
| `FilterItems` | filter_items.dfy | the fuzzy scorer `nextScore` and the filter-and-rank pass of utils/filterItems.ts |
| `Utf8Index` | utf8_index.dfy | `utf8_code2len`, `characterIndex` and `byteSlice` of utils/string.ts, against the UTF-8 encoding of section 3 of RFC 3629 |
| `TextSync` | text_sync.dfy | the `openedFiles` record and the five text-synchronization notifications |
| `Completion` | completion.dfy | trigger detection, truncation, tagging and the single-flight resolve of features/completion.ts |
| `Rename` | rename.dfy | `changes` flattening and prepare-rename normalisation |
| `Locations` | locations.dfy | definition and reference answers turned into `{path, range}` records |
| `Diagnostics` | diagnostics.dfy | the per-project diagnostics store |
| `Client` | client.dfy | the `LanguageClient` lifecycle, its guards, sync resolution and dynamic registration |
| `Orchestrator` | orchestrator.dfy | the message hook of lsp-rocks.ts: client creation, the two staleness checks, delivery |
| `MethodRequirements` | method_requirements.dfy | the method → capability table |
| `Tailwind` | tailwind.dfy | activation, the trigger-character patch and the option merge of the Tailwind CSS descriptor |
| `EpcUtils` | epc_utils.dfy | the value conversions of epc-utils.ts |
| `Protocol`, `Wrappers` | protocol.dfy, wrappers.dfy | shared protocol shapes, `Option` and `Result` |

Strings are `seq<char>`, one `char` per UTF-16 code unit, as JavaScript's
`length`, `slice` and `<` count them. utils/string.ts iterates code points, so
`Utf8Index` works on sequences of code points. The fuzzy scores are exact
reals.

## Model

| member | source | states |
|---|---|---|
| FilterItems.CharCodes | utils/filterItems.ts:66-72 | one code per UTF-16 unit of the string |
| FilterItems.GetCase | utils/filterItems.ts:89-95 | 1 exactly for a–z, 2 exactly for A–Z, 0 otherwise (undefined included) |
| FilterItems.WordChar | utils/filterItems.ts:74-76 | an ASCII letter exactly when `getCase` gives a non-zero case |
| FilterItems.GetNextWord | utils/filterItems.ts:97-107 | the first word start at or after the index, where a word start is a letter whose case differs from the code before it; none when no later position starts a word |
| FilterItems.FindIndex | utils/filterItems.ts:78-87 | -1 exactly when no position from `start` on holds the value; otherwise the first such position |
| FilterItems.CaseScore | utils/filterItems.ts:114-118 | `1/divide` for equal codes, `0.5/divide` when the typed code is the code plus 32, and non-zero only in those two cases |
| FilterItems.FirstFuzzy | utils/filterItems.ts:153-161 | the first later position with a positive case score, and its score; none when every later position scores 0 |
| FilterItems.Best | utils/filterItems.ts:142-177 | the largest-key entry of the two-entry score map: the fuzzy candidate wins an equal key; none only when both candidates failed |
| FilterItems.NextScore | utils/filterItems.ts:120-178 | `(0, positions)` on empty input; none past the end; a match has one position per typed code, all inside the word, and a positive score |
| FilterItems.ViaWord | utils/filterItems.ts:141-152 | the next-word candidate extends the positions by one per remaining typed code and scores positively |
| FilterItems.ViaFuzzy | utils/filterItems.ts:153-161 | the fuzzy candidate extends the positions by one per remaining typed code and scores positively |
| FilterItems.StepBack | utils/filterItems.ts:162-175 | the step back to the previous position extends the positions by one per remaining typed code and scores positively |
| FilterItems.MatchScore | utils/filterItems.ts:109-112 | none for empty input or a word shorter than the input; a match scores positively, with one in-bounds position per typed code |
| FilterItems.LiteralPrefixMatches | utils/filterItems.ts:120-140 | typed codes that literally start the remaining word always match |
| FilterItems.ItemScore | utils/filterItems.ts:19-37 | a filter text shorter than the prefix drops the item; an empty prefix keeps it with score 0; a kinded item whose filter text equals the prefix scores 64; otherwise the match score, and a score of 0 or no match drops it |
| FilterItems.PrefixAlwaysKept | utils/filterItems.ts:19-37 | an item whose filter text starts with a non-empty typed prefix is kept with a positive score |
| FilterItems.FilterText | utils/filterItems.ts:20 | `filterText ?? label`: the label only when `filterText` is absent, so an empty `filterText` is kept |
| FilterItems.StrLessTrichotomy | utils/filterItems.ts:57 | JavaScript's string `<` (`StrLess`, code unit by code unit, a proper prefix first) orders any two different strings one way only |
| FilterItems.CompareProperties | utils/filterItems.ts:53-61 | the comparator is antisymmetric, puts a higher score first, orders equal scores by two differing sort texts, and ties otherwise |
| FilterItems.Compare | utils/filterItems.ts:53-61 | different scores put the higher first; equal scores with two differing sort texts give -1 or 1; otherwise 0 |
| FilterItems.Insert | utils/filterItems.ts:53-61 | inserting adds exactly the one item to the multiset |
| FilterItems.InsertKeepsOrder | utils/filterItems.ts:53-61 | inserting into a list with no neighbour pair out of comparator order keeps that property |
| FilterItems.Sort | utils/filterItems.ts:53-63 | the ranking is a permutation of the kept items |
| FilterItems.SortIsOrdered | utils/filterItems.ts:53-61 | no neighbour pair of the ranking is out of comparator order |
| FilterItems.OrderedScoresDescend | utils/filterItems.ts:56 | in such a list scores never increase from front to back |
| FilterItems.Kept | utils/filterItems.ts:14-51 | only items with a score are kept, at most as many as the input has; an empty prefix keeps all of them |
| FilterItems.KeptStep | utils/filterItems.ts:14-51 | the first item is kept exactly when it has a score, ahead of what the rest keeps |
| FilterItems.KeptMultiplicity | utils/filterItems.ts:14-51 | each item with a score is kept exactly as often as the input holds it, any other item never |
| FilterItems.KeptFromInput | utils/filterItems.ts:14-51 | the kept items are drawn from the input and include every item with a score |
| FilterItems.Filter | utils/filterItems.ts:9-64 | every item the prefix keeps appears exactly as often as in the input, and no other item appears; with an empty prefix the result is a permutation of the input |
| FilterItems.FilterRanks | utils/filterItems.ts:53-63 | the filtered result has non-increasing scores and no neighbour pair out of comparator order |
| Utf8Index.Utf8CodeLen | utils/string.ts:31-36 | the table gives between 1 and 4 octets |
| Utf8Index.Utf8LengthTable | utils/string.ts:31-36 | `utf8_code2len` is the length of the RFC 3629 encoding, whose lead octet announces that length |
| Utf8Index.Utf8RoundTrip | utils/string.ts:31-36 | the reference encoding used for the table decodes back to the code point |
| Utf8Index.Utf8RoundTripFour | utils/string.ts:31-36 | the same for the four-octet range, from U+10000 up |
| Utf8Index.ByteLenIsUtf8Length | utils/string.ts:17-25 | the octets `characterIndex` counts for a text are those of its UTF-8 encoding |
| Utf8Index.CharacterIndexIsPrefixLength | utils/string.ts:13-29 | for a non-zero offset the result is the UTF-16 length of the shortest prefix whose octets reach the offset, or of the whole text |
| Utf8Index.CharacterIndex | utils/string.ts:13-29 | the result never exceeds the UTF-16 length, and a non-zero offset into a non-empty text gives a positive index |
| Utf8Index.JsSlice | utils/string.ts:7-11 | JavaScript's `slice` on the UTF-16 units: the units from `from` up to `to`, or nothing when `to` comes first |
| Utf8Index.ByteSlice | utils/string.ts:7-11 | the slice is no longer than the string, and without `end` it is a suffix of the string |
| Utf8Index.CharacterIndexAtBoundary | utils/string.ts:13-29 | the octet offset of a code-point boundary maps to the UTF-16 offset of that boundary (offset 0 to 0) |
| Utf8Index.CharacterIndexInside | utils/string.ts:17-28 | an offset inside a code point's octets rounds up to the end of that code point |
| Utf8Index.CharacterIndexBounds | utils/string.ts:17-28 | the result never exceeds the UTF-16 length, and an offset at or past the end yields exactly that length |
| Utf8Index.CharacterIndexMonotone | utils/string.ts:17-28 | over non-negative offsets the result never decreases |
| Utf8Index.CharacterIndexNegative | utils/string.ts:14-27 | a negative offset stops the loop after the first code point |
| Utf8Index.ByteSliceAtBoundaries | utils/string.ts:7-11 | slicing between two boundary offsets yields the UTF-16 text of the code points between them; an absent end slices to the end |
| TextSync.Without | features/textSynchronization.ts:58-60 | the filter removes every copy of the URI and keeps every other entry |
| TextSync.DidOpen | features/textSynchronization.ts:28-36 | a tracked URI sends nothing and changes nothing; an untracked one is appended and one `didOpen` with the same params is sent |
| TextSync.DidClose | features/textSynchronization.ts:53-62 | an untracked URI is a no-op; a tracked one is removed, other entries stay, and one `didClose` is sent |
| TextSync.WithoutKeepsOrder | features/textSynchronization.ts:58-60 | closing keeps the relative order of the other entries |
| TextSync.Forward | features/textSynchronization.ts:79-125 | `didChange`, `willSave` and `didSave` send their params once and leave `openedFiles` alone |
| TextSync.DidChange | features/textSynchronization.ts:79-86 | `didChange` sends its params once and leaves `openedFiles` alone |
| TextSync.WillSave | features/textSynchronization.ts:88-111 | `willSave` sends its params once and leaves `openedFiles` alone |
| TextSync.DidSave | features/textSynchronization.ts:113-125 | `didSave` sends its params once and leaves `openedFiles` alone |
| TextSync.ConsNoDuplicates | features/textSynchronization.ts:28-36 | adding a URI that is not tracked keeps the tracked URIs free of duplicates |
| TextSync.RunKeepsNoDuplicates | features/textSynchronization.ts:28-62 | no sequence of events puts a URI into `openedFiles` twice |
| TextSync.OpenTwiceSendsOnce | features/textSynchronization.ts:31-35 | opening a document twice sends one `didOpen` |
| Completion.Decimal | features/completion.ts:88 | the rendering of an index is a non-empty string of digits |
| Completion.DecimalRoundTrip | features/completion.ts:88 | reading the rendered index back gives the index |
| Completion.DecimalInjective | features/completion.ts:88 | different indexes render differently |
| Completion.Tag | features/completion.ts:88 | the tag is the label, `-`, then the rendered index |
| Completion.TagInjective | features/completion.ts:88 | two tags agree only when label and index both agree |
| Completion.Abridge | features/completion.ts:96-98 | a detail over 30 characters becomes `...` and its last 30 characters; a shorter one stays |
| Completion.AbridgeDetail | features/completion.ts:96-98 | only `detail` changes, and only by abridging |
| Completion.Pretext | features/completion.ts:49 | the line up to the cursor column, the whole line when the column is past its end |
| Completion.FindTrigger | features/completion.ts:50-52 | the first trigger the text before the cursor ends with (`EndsWith`, JavaScript's `endsWith`); none exactly when it ends with none |
| Completion.Context | features/completion.ts:53-62 | the found trigger is sent, and the kind is `TriggerCharacter` exactly when it is non-empty |
| Completion.TagItem | features/completion.ts:87-98 | each item gets its tag, the client name, `start = startPoint` and `end - start = |label| - |prefix|` |
| Completion.TagAll | features/completion.ts:87-101 | every item is tagged with its own position |
| Completion.RecordExact | features/completion.ts:99 | recording items with distinct tags maps each tag to its item and adds no other key |
| Completion.TagsDistinct | features/completion.ts:88 | tags within one answer are distinct |
| Completion.Take | features/completion.ts:83-86 | at most `n` items, taken from the front |
| Completion.RunCompletion | features/completion.ts:42-75 | without the capability the answer is `[]` and no request is sent; otherwise the request carries the trigger context; a rejection propagates; a null or bare-array answer gives `[]`; the map is cleared first |
| Completion.CompletionAnswer | features/completion.ts:83-102 | a list answer (built by `Answer`, which filters by the line up to the cursor) gives min(filtered, 100) items in filter order, each the tagged filtered item at its index and drawn from the server's items |
| Completion.CompletionAnswerMap | features/completion.ts:46-101 | afterwards the label map holds exactly the returned items, each under its tag |
| Completion.EnrichedDoc | features/completion.ts:160-175 | the detail becomes markdown documentation, is prefixed to plain text, or is fenced before a markup value |
| Completion.ReplaceEdit | features/completion.ts:180-189 | an insert/replace edit becomes a replace `TextEdit` with the same text; nothing else changes |
| Completion.Enrich | features/completion.ts:160-179 | a truthy (`Truthy`: present and non-empty) detail different from the shown one enriches the documentation and abridges the detail; otherwise the answer is unchanged |
| Completion.Resolve | features/completion.ts:120-190 | as written: a missing item or capability gives null; a request is sent exactly when none is pending; the pending answer settles the result (a rejection propagates, null gives null, an item gives its enriched replace-edit form); the cache then holds the enriched item; other entries are untouched |
| Completion.ResolveFixed | features/completion.ts:129-190 | the corrected resolve: the cache keeps the server's answer, and the result is derived from it afresh |
| Completion.ResolveFirstAgrees | features/completion.ts:129-190 | on a first resolve the code as written and the corrected resolve send the same request and give the same answer |
| Completion.ResolveTwice | features/completion.ts:129-151 | with the corrected cache, a second resolve sends no request and answers exactly as the first |
| Completion.ResolveSingleFlight | features/completion.ts:129-151 | as written, too, a second resolve sends no request |
| Completion.ResolveTwiceEnrichesTwice | features/completion.ts:146-178 | as written, a second resolve of an enriched item wraps the detail into its documentation again |
| Rename.AsDocumentChanges | features/rename.ts:35-42 | one text-document edit per `changes` key, in key order, with that URI's edits |
| Rename.Flatten | features/rename.ts:31-45 | with `changes`, `documentChanges` becomes the old list (or `[]`) followed by the converted changes; `changes` itself is kept; without `changes` nothing changes |
| Rename.AsDocumentChangesRoundTrip | features/rename.ts:35-42 | reading the edits back from the converted entries gives `changes` |
| Rename.FlattenKeepsEdits | features/rename.ts:31-43 | after flattening, the document edits are the earlier ones followed by every `changes` entry |
| Rename.RunRename | features/rename.ts:25-46 | a null answer is null, a rejection propagates, and a non-null answer is returned flattened, `changes` kept |
| Rename.RunRenameKeepsEdits | features/rename.ts:31-43 | a non-null answer reaches the editor with its earlier document edits followed by every edit of `changes` |
| Rename.NormalizePrepare | features/rename.ts:74-85 | `defaultBehavior` gives null; a `{start, end}` answer becomes `{range, placeholder: ''}`; anything else is returned as is |
| Rename.NormalizePrepareIdempotent | features/rename.ts:74-85 | normalising a normalised answer changes nothing |
| Rename.RunPrepareRename | features/rename.ts:63-86 | null stays null, a rejection propagates, and a non-null answer is normalised |
| Locations.ToFileLocation | features/definition.ts:31-45 | a `Location` maps to its path and range; a link maps to its target path and target range |
| Locations.RunDefinition | features/definition.ts:23-41 | without the capability, `[]` and no request; null gives `[]`; an array maps element-wise; a single location gives a one-element list |
| Locations.RunReferences | features/reference.ts:22-30 | the request is always sent; null gives `[]`; otherwise every range is kept and every URI made a path, in order |
| Locations.DefinitionMatchesReferences | features/definition.ts:30-37 | a definition answer of plain locations converts like a references answer of the same list |
| Diagnostics.Lookup | diagnostics.ts:18-32 | no project or no stored items give `[]`; otherwise the concatenated diagnostics of the project's items on that URI |
| Diagnostics.Collect | diagnostics.ts:25-31 | every collected diagnostic comes from an item on that document, and every such item contributes all of its diagnostics |
| Diagnostics.FindItem | diagnostics.ts:44-46 | the first item with that URI and source, or none when there is none |
| Diagnostics.Upsert | diagnostics.ts:44-54 | a matching item gets the new diagnostics in place and nothing else changes; otherwise a new item is appended |
| Diagnostics.Publish | diagnostics.ts:34-56 | the project list is created when absent and upserted; other projects are unchanged; one report is sent to the editor |
| Diagnostics.PublishKeepsUnique | diagnostics.ts:39-54 | every project keeps at most one item per `(uri, source)`, and the published pair ends in exactly one item |
| Diagnostics.CollectNone | diagnostics.ts:25-31 | items on other documents contribute nothing |
| Diagnostics.CollectConcat | diagnostics.ts:25-31 | the collected diagnostics of two item lists concatenate |
| Diagnostics.CollectAfterUpsert | diagnostics.ts:24-54 | when only the publishing source has reported on a document, its diagnostics afterwards are exactly the published ones |
| Diagnostics.UpsertCollectAt | diagnostics.ts:52-54 | the same when the item is updated in place |
| Diagnostics.LookupAfterPublish | diagnostics.ts:18-56 | looking the file up after a publication gives exactly the published diagnostics, when no other source has reported on it |
| Diagnostics.PublishIsolated | diagnostics.ts:34-56 | a publication for one project never changes the lookups of another project's files |
| Client.ClientName | client.ts:175 | the name is the project, `:`, then the language |
| Client.ClientNameInjective | client.ts:175 | the name determines project and language when the language holds no `:` |
| Client.NewClient | client.ts:169-196 | a new client is named, has no state yet, no start, no connection and no registrations |
| Client.Send | client.ts:230-320 | `sendRequest` and `sendNotification`: in `StartFailed`, `Stopping` or `Stopped` the call rejects with `ConnectionInactive`; without a connection it resolves to undefined; otherwise the connection's answer |
| Client.OnRequest | client.ts:259-278 | the call throws exactly in the inactive states |
| Client.ResolveSync | client.ts:537-563 | numeric `None` gives `{openClose: false, change: None}`; another kind k gives `{openClose: true, change: k, save: {includeText: false}}`; an object is used as is; absent or null gives undefined |
| Client.ResolveSyncStable | client.ts:537-563 | the resolved record resolves to itself, and a numeric kind survives as `change` |
| Client.CheckEncoding | client.ts:524-531 | initialization fails exactly when the server declares an encoding other than `utf-16`, `null` included, naming the declared value |
| Client.BeginShutdown | client.ts:602-634 | `Stopped` or `Initial` returns at once; `Stopping` joins the pending stop or throws without one; a running, connected client starts stopping; anything else throws |
| Client.SettleStop | client.ts:647-669 | whichever side wins the race, the client ends stopped with start, stop and connection cleared; a timer win reports a timeout |
| Client.Stop | client.ts:592-669 | a refused shutdown leaves the client as it was; a begun or joined shutdown ends stopped and cleared, succeeds exactly when the shutdown wins the race, rejects with a timeout when the timer wins and rethrows a failed shutdown's error; name, features and registrations never change |
| Client.Start | client.ts:327-382 | while stopping the call throws; a recorded start is returned unchanged; otherwise the start is recorded and ends `Running` exactly when it succeeds; a launch failure, an `initialize` rejection, an unsupported encoding or a failed `initialized` notification each rejects with that error and ends `StartFailed`; name, features and registrations never change |
| Client.ReportedFailure | client.ts:517-584 | once the connection exists, a rejected `initialize`, an unsupported encoding and a failed `initialized` notification are reported to the editor; a failed launch is not |
| Client.ReportedFailureIsStartFailure | client.ts:327-382 | a fresh start reports a failure exactly when it fails for a reason other than the launch, and reports the very error it fails with |
| Client.StartRecordsCapabilities | client.ts:533-569 | a successful start keeps the initialize result and the resolved sync options |
| Client.Restart | client.ts:322-325 | a rejected stop ends the restart; otherwise a start follows the stop |
| Client.RestartRunning | client.ts:322-325 | restarting a running client whose shutdown completes runs a fresh start |
| Client.RestartTimedOut | client.ts:322-325 | when the timer wins, the client is stopped and cleared but the restart rejects before starting |
| Client.Register | client.ts:506-515 | at most one report per registration, and only for methods without a feature |
| Client.RegisterLastWins | client.ts:506-515 | every registration is recorded under its method, the last one of a method wins, and other methods keep their entry |
| Client.RegisterReportsMissing | client.ts:506-515 | the reported methods are exactly the registered ones without a feature |
| Client.HandleRegistration | client.ts:506-515 | the client keeps the recorded registrations and reports the methods without a feature |
| Client.Route | client.ts:686-695 | a method is routed to its feature, and a method without one rejects |
| Client.Settle | client.ts:664-669 | a pending race settling leaves the client stopped and cleared; without one nothing changes; name, features and registrations never change |
| Client.StartValid | client.ts:327-382 | a start keeps the lifecycle invariant |
| Client.StopValid | client.ts:592-669 | a stop keeps the lifecycle invariant |
| Client.ApplyValid | client.ts:322-669 | every lifecycle event keeps the invariant |
| Client.RunKeepsIdentity | client.ts:159-182 | no sequence of events renames a client or changes its features, and without a registration request its registrations stay as they were |
| Client.RunValid | client.ts:145 | from any valid client, every reachable client is valid, and `Initial` is never entered |
| Client.NewClientValid | client.ts:169-196 | a new client satisfies the invariant |
| Client.Valid | client.ts:145-669 | a valid client is unset, running or in one of the three inactive states; a connected one has a state; a running one is connected and active |
| Client.GuardsFollowLifecycle | client.ts:230-320 | a running client passes requests to its connection; after a failed start or a completed stop every request and handler registration is refused; after a successful start none is |
| Client.StartFailedIsFinal | client.ts:335-337 | a failed start with no stop pending stays failed: later starts return the recorded failure without reconnecting |
| Client.StartFailedThenStopped | client.ts:571-582 | a failed `initialized` notification leaves the client failed with a shutdown pending; once it settles the client is stopped and starts afresh |
| Orchestrator.Arrive | lsp-rocks.ts:76-78 | every message records its id as the latest for its command before it is handled; nothing else changes |
| Orchestrator.EnsureClient | lsp-rocks.ts:131-149 | an existing `test` client is returned; without params the editor is told and the call throws; otherwise a new client is cached before its start is awaited, and the call fails exactly when that start fails, with its error; every failure after launch also sends the editor a message describing that error, a launch failure sends none; the cached client serves exactly the given features and has no registrations |
| Orchestrator.EnsureClientReuses | lsp-rocks.ts:131-149 | once a client is cached, every later message reuses it and starts nothing |
| Orchestrator.Admit | lsp-rocks.ts:97-118 | responses are ignored; `init` stops after client creation; a stale message is dropped before dispatch exactly when it is not a `didChange`; a fresh message, or any `didChange`, with a client reaches its command's feature when one is registered and fails with `NoFeature` otherwise |
| Orchestrator.MakeResponse | lsp-rocks.ts:53-55 | the response object has exactly the keys `id`, `cmd` and `data` |
| Orchestrator.MakeResponseRoundTrip | lsp-rocks.ts:53-55 | reading the response object back gives id, command and data |
| Orchestrator.Deliver | lsp-rocks.ts:118-126 | an answer is selected exactly when the message is still the latest for its command and the data is neither null nor undefined, and it carries that id, command and data |
| Orchestrator.Emit | lsp-rocks.ts:118-126 | a selected answer reaches the editor as a `message` call on the written response object; nothing reaches it otherwise, and a rejection propagates |
| Orchestrator.EmitCarriesResponse | lsp-rocks.ts:53-55 | after the `[LSP-ROCKS] ` prefix, the emitted text is the written `{id, cmd, data}` object |
| Orchestrator.IsResponse | lsp-rocks.ts:30-32 | exactly `get-var` and `call-func` messages are responses, so `init` and `didChange` never are |
| Orchestrator.ArriveAllSnoc | lsp-rocks.ts:76-78 | arrivals compose one message at a time |
| Orchestrator.LastId | lsp-rocks.ts:76-78 | the id of the last message with that command; none exactly when none has it |
| Orchestrator.ArriveAllLatest | lsp-rocks.ts:76-78 | after a run of arrivals the latest id of a command is that of its last message, or unchanged when none arrived |
| Orchestrator.SupersededNeverDelivered | lsp-rocks.ts:115-121 | a message overtaken by another of the same command is never delivered, and before dispatch it is dropped unless it is a `didChange` |
| Orchestrator.DidChangeDispatchedWhenStale | lsp-rocks.ts:115-121 | a stale `didChange` still reaches its feature, but its answer is not delivered |
| Orchestrator.OtherCommandsIrrelevant | lsp-rocks.ts:115-121 | staleness is keyed by command alone: other commands do not affect delivery |
| MethodRequirements.RequirementOf | constants/methodRequirements.ts:8-118 | only `completionItem/resolve` carries the resolve-provider check |
| MethodRequirements.RunCheck | constants/methodRequirements.ts:15-31 | the empty checks return undefined; the resolve check returns `resolveProvider`, undefined without `completionProvider` |
| MethodRequirements.FeatureRequirements | constants/methodRequirements.ts:23-55 | completion, definition and formatting require `completionProvider`, `definitionProvider` and `documentFormattingProvider` |
| MethodRequirements.ResolveRequirement | constants/methodRequirements.ts:26-31 | resolving a completion item is gated by `completionProvider.resolveProvider` |
| MethodRequirements.EmptyChecks | constants/methodRequirements.ts:15-102 | `codeAction/resolve`, `prepareRename` and the three semantic-token methods carry an empty check |
| MethodRequirements.AbsentMethods | constants/methodRequirements.ts:8-118 | `textDocument/didOpen` has no entry |
| Tailwind.AnyExists | langserver/tailwindcss.ts:60-62 | true exactly when some candidate exists under the root |
| Tailwind.Activate | langserver/tailwindcss.ts:47-63 | activation holds exactly when one of the nine configuration files exists under the root |
| Tailwind.ActivateIgnoresFile | langserver/tailwindcss.ts:47 | the file path does not matter |
| Tailwind.ActivateByGrid | langserver/tailwindcss.ts:48-58 | activation holds exactly when `tailwind.config.{js,cjs,ts}` exists at the root, under `config/` or under `assets/` |
| Tailwind.InitializedFn | langserver/tailwindcss.ts:64-71 | declared trigger characters get exactly one `-` appended; without them the result is unchanged |
| Tailwind.InitializedFnTwice | langserver/tailwindcss.ts:64-71 | applied twice, `-` is appended twice |
| Tailwind.InitializedFnUndo | langserver/tailwindcss.ts:67-69 | dropping the trailing `-` undoes the patch |
| Tailwind.InitializeOptions | langserver/tailwindcss.ts:10-16 | the merge has the keys of both groups, and a Tailwind key wins over an editor key |
| Tailwind.InitializeOptionsOneGroup | langserver/tailwindcss.ts:10-16 | with one group absent, the other passes through |
| EpcUtils.Split | epc-utils.ts:24 | at least one part, none holding the separator |
| EpcUtils.TakeUntil | epc-utils.ts:24 | the text before the first separator |
| EpcUtils.SplitJoin | epc-utils.ts:24 | joining the parts gives the string back |
| EpcUtils.SplitFirst | epc-utils.ts:24 | the first part is the text before the first separator |
| EpcUtils.HandleArg | epc-utils.ts:22-27 | a string starting with `'` becomes the quoted symbol of its second part; anything else is quoted as is |
| EpcUtils.QuotedArgIsSymbol | epc-utils.ts:22-27 | the symbol is the text between the first quote and the next one, or the end |
| EpcUtils.HandleArgSymbolStable | epc-utils.ts:22-27 | such a symbol holds no quote, so it is quoted as is when handled again |
| EpcUtils.CallArgs | epc-utils.ts:29-31 | the method symbol followed by every argument handled, in order |
| EpcUtils.MessageEmacs | epc-utils.ts:35-37 | a `message` call with the text prefixed by `[LSP-ROCKS] ` |
| EpcUtils.MessageKeepsText | epc-utils.ts:35-37 | the text follows the prefix intact |
| EpcUtils.ConvertEmacsBool | epc-utils.ts:39-45 | with flag `t`, whether the value is the string `t`; otherwise the value unchanged |
| EpcUtils.ConvertEmacsBoolCases | epc-utils.ts:39-45 | a boolean variable is true exactly when its value is `t` |
| EpcUtils.GetEmacsVars | epc-utils.ts:47-52 | a missing answer gives `[]`; otherwise every pair converted, in order |
| EpcUtils.GetEmacsVar | epc-utils.ts:54-62 | a missing answer throws naming the variable; the call succeeds exactly when an answer arrives |
| EpcUtils.GetEmacsVarMatchesVars | epc-utils.ts:47-62 | one variable and a one-element batch convert alike |
| EpcUtils.FuncResult | epc-utils.ts:64-69 | the result `t` becomes `true`; anything else passes through |
| EpcUtils.FuncResultAgreesWithBool | epc-utils.ts:39-69 | the function result agrees with the boolean conversion exactly for `t` and `false` |

## Behaviour worth knowing

Each point is a fact about the code, and the model follows it.

- A repeated identical diagnostics publication is reported again: every publication triggers one editor report (diagnostics.ts:55).
- `LanguageClient.on` opens no document first. It only calls the feature registered for the method and rejects when there is none (client.ts:686-695).
- `LanguageClient` installs no connection-close handler, so a crashed server is not restarted.
- The `didChange` exemption applies only to the staleness check before dispatch. A stale `didChange` answer is dropped after dispatch (lsp-rocks.ts:115-121).
- All messages share one client, cached under the key `test` (lsp-rocks.ts:131-149).
- Opening a document does not push trigger characters to the editor; that code is commented out (features/textSynchronization.ts:29-30).
- An empty trigger string is found and sent, but `triggerKind` is `Invoked`, because the kind follows the string's truthiness (features/completion.ts:57-60).
- Completion filters by the whole line up to the cursor (`line.slice(0, character)`), not by the editor's `prefix`; the prefix only sets where each returned item ends (features/completion.ts:47-94).
- `initializedFn` of a server descriptor is not called anywhere in client.ts.
- A `positionEncoding` of `null` fails initialization, because the check compares with `undefined` only (client.ts:524-531).

## Left out

- connection.ts, process spawning and the stdio streams: I/O. A start outcome is a parameter.
- Promise interleavings are not modelled as concurrency. The window while a start is in flight (state `Starting`, start promise unsettled) is not a reachable record: `Start` settles in one step. Messages that arrive between admission and delivery are modelled by applying arrivals to the state between `Admit` and `Deliver`.
- Unhandled rejections from `void this.stop()` (client.ts:581) are not modelled. The refusal it meets is modelled.
- Client.Start: the `initialize` parameters (`fillInitializeParams`, the client capabilities, the language's JSON options) are not modelled, because they do not affect the state machine.
- `checkCapabilityForMethod`, `triggerCharacters`, `labelCompletionMap` and `openedFiles` are used by the features but not defined in client.ts. Features take them as fields of a client record: `capable` is the set of methods the check admits.
- features/features.ts (`DynamicFeature.is`, `RunnableDynamicFeature.run`) is not part of this model. A client's dynamic features are a set of method names.
- FilterItems.Filter: the item positions (utils/filterItems.ts:38-45) are not modelled, because they never reach the output.
- FilterItems.Sort: this is one stable insertion order consistent with the comparator. V8's sort may choose another arrangement when the comparator is not transitive. Only permutation, neighbour order and descending scores are stated.
- FilterItems.NextScore: scores are exact reals, not IEEE doubles. No property depends on rounding.
- Utf8Index: strings holding lone surrogates are not modelled. Content is a sequence of valid code points.
- The encoder and `quote`/`symbol` of the RPC library are uninterpreted constructors. `callMethod` and `startServer` are left out. `JSON.stringify` is a parameter of `Orchestrator.Emit`, and the text `initialize` makes of a thrown error (its message and stack, or its JSON) is a parameter of `Orchestrator.EnsureClient`.
- Locations: `URI.parse(u).path` and `fileURLToPath` are parameters. `fileURLToPath` throwing on a non-file URI is not modelled.
- Tailwind.Activate: `existsSync(join(root, file))` is a parameter over root and relative path, so `join`'s path normalisation is not modelled.
- Tailwind.InitializeOptions: `this.settings` is a parameter, not the descriptor's constant settings.
- The method table has no reverse lookup, so no round trip is stated for it. Its entries are stated directly.
- Static descriptors (typescript, eslint), the language-id map, logging, the CLI entry point, the server loader and the format and configuration features are outside the core.

## Findings

| source | as written | input that shows it | evidently intended | confidence | as-written member | corrected member |
|---|---|---|---|---|---|---|
| features/completion.ts:146-178 | the promise kept in `resolving` resolves to the object that `runWith` then enriches in place, so a later resolve of the same item enriches the cached, already enriched answer again | an item shown without `detail`, resolved twice when the server answers `detail: "int"` with no documentation: the first answer's documentation is `int`, the second's is wrapped again as a fenced `int` followed by `int` | every resolve of an item answers alike, derived from the server's one answer | not executed | Completion.ResolveTwiceEnrichesTwice | Completion.ResolveTwice |

=== FILE: client.dfy ===
/** client.ts: the `LanguageClient` lifecycle.  The client is a record and
    every public operation a function from one record to the next; each
    `await` is resolved by a parameter that says how it settled (the
    connection launch, the `initialize` answer, the `initialized`
    notification, the shutdown race against its timer). */
module Client {
  import opened Wrappers
  import opened Protocol

  /** `ClientState`.  `Initial` is declared but never assigned. */
  datatype ClientState = Initial | Starting | StartFailed | Running | Stopping | Stopped

  const Utf16Encoding := "utf-16"

  /** The capabilities kept after initialization, with the derived
      `resolvedTextDocumentSync`. */
  datatype ResolvedCapabilities = ResolvedCapabilities(
    capabilities: ServerCapabilities,
    resolvedTextDocumentSync: Option<TextDocumentSyncOptions>)

  /** `Registration` of `client/registerCapability`. */
  datatype Registration = Registration(id: string, regMethod: string, registerOptions: Json)

  /** The record of one client.  `state` is `None` until first assigned
      (the field has no initializer); `onStart` is the recorded start
      promise, with the outcome it settled to; `stopPending` says whether a
      shutdown race has begun and not yet settled. */
  datatype Client = Client(
    name: string,
    state: Option<ClientState>,
    onStart: Option<Result<(), Error>>,
    stopPending: bool,
    connected: bool,
    initializeResult: Option<InitializeResult>,
    capabilities: Option<ResolvedCapabilities>,
    dynamicFeatures: set<string>,
    registered: map<string, Registration>)

  /** `${project}:${language}`. */
  function ClientName(project: string, language: string): (r: string)
    ensures |r| == |project| + 1 + |language|
    ensures r[..|project|] == project && r[|project|] == ':' && r[|project| + 1 ..] == language
  {
    project + ":" + language
  }

  /** The name determines project and language when the language holds no
      `:`, which the language identifiers never do. */
  lemma ClientNameInjective(p1: string, l1: string, p2: string, l2: string)
    requires ':' !in l1 && ':' !in l2
    requires ClientName(p1, l1) == ClientName(p2, l2)
    ensures p1 == p2 && l1 == l2
  {
    var s := ClientName(p1, l1);
    assert s[|p1|] == ':' && s[|p2|] == ':';
    assert |p1| == |p2|;
  }

  /** The constructor; `dynamicFeatures` are the methods of the features
      registered as dynamic. */
  function NewClient(project: string, language: string, dynamicFeatures: set<string>): (c: Client)
    ensures c.name == ClientName(project, language)
    ensures c.state.None? && c.onStart.None? && !c.stopPending && !c.connected
    ensures c.registered == map[] && c.dynamicFeatures == dynamicFeatures
  {
    Client(ClientName(project, language), None, None, false, false, None, None, dynamicFeatures, map[])
  }

  // ---------------------------------------------------------------------
  // Guards

  predicate Inactive(c: Client) {
    c.state == Some(StartFailed) || c.state == Some(Stopping) || c.state == Some(Stopped)
  }

  /** `sendRequest` and `sendNotification`: `reply` is how the request
      settles on the connection. */
  function Send<T>(c: Client, reply: Reply<T>): (r: Reply<T>)
    ensures Inactive(c) ==> r == Rejected(ConnectionInactive)
    ensures !Inactive(c) && !c.connected ==> r == Resolved(None)
    ensures !Inactive(c) && c.connected ==> r == reply
  {
    if Inactive(c) then Rejected(ConnectionInactive)
    else if !c.connected then Resolved(None)
    else reply
  }

  /** `onRequest`: whether a handler is installed. */
  function OnRequest(c: Client): (r: Result<bool, Error>)
    ensures Inactive(c) <==> r == Failure(NotReady)
    ensures !Inactive(c) ==> r == Success(c.connected)
  {
    if Inactive(c) then Failure(NotReady) else Success(c.connected)
  }

  // ---------------------------------------------------------------------
  // Initialization

  /** `resolvedTextDocumentSync`. */
  function ResolveSync(decl: SyncDeclaration): (r: Option<TextDocumentSyncOptions>)
    ensures decl == SyncKind(SyncKindNone) ==>
              r == Some(TextDocumentSyncOptions(Some(false), Some(SyncKindNone), None))
    ensures decl.SyncKind? && decl.kind != SyncKindNone ==>
              r == Some(TextDocumentSyncOptions(Some(true), Some(decl.kind), Some(SaveOptions(Some(false)))))
    ensures decl.SyncDetailed? ==> r == Some(decl.options)
    ensures decl.SyncAbsent? || decl.SyncNull? ==> r.None?
  {
    match decl
    case SyncKind(k) =>
      if k == SyncKindNone then Some(TextDocumentSyncOptions(Some(false), Some(SyncKindNone), None))
      else Some(TextDocumentSyncOptions(Some(true), Some(k), Some(SaveOptions(Some(false)))))
    case SyncDetailed(options) => Some(options)
    case _ => None
  }

  /** The resolved record is a fixed point: declaring it as the options
      resolves to itself, and a numeric kind survives as `change`. */
  lemma ResolveSyncStable(decl: SyncDeclaration)
    ensures ResolveSync(decl).Some? ==> ResolveSync(SyncDetailed(ResolveSync(decl).value)) == ResolveSync(decl)
    ensures decl.SyncKind? ==> ResolveSync(decl).value.change == Some(decl.kind)
    ensures decl.SyncKind? ==> (ResolveSync(decl).value.openClose == Some(true) <==> decl.kind != SyncKindNone)
  {
  }

  /** The encoding check of `doInitialize`: anything but an absent
      declaration or `utf-16` is refused, `null` included. */
  function CheckEncoding(result: InitializeResult): (r: Result<InitializeResult, Error>)
    ensures r.Success? <==> result.capabilities.positionEncoding.EncodingAbsent?
                            || result.capabilities.positionEncoding == EncodingName(Utf16Encoding)
    ensures r.Success? ==> r.value == result
    ensures result.capabilities.positionEncoding == EncodingNull ==> r == Failure(UnsupportedEncoding("null"))
    ensures result.capabilities.positionEncoding.EncodingName? && r.Failure? ==>
              r.error == UnsupportedEncoding(result.capabilities.positionEncoding.name)
  {
    match result.capabilities.positionEncoding
    case EncodingAbsent => Success(result)
    case EncodingNull => Failure(UnsupportedEncoding("null"))
    case EncodingName(enc) =>
      if enc != Utf16Encoding then Failure(UnsupportedEncoding(enc)) else Success(result)
  }

  /** How the awaited steps of one `start` settle. */
  datatype StartOutcome =
    | LaunchFails(launchError: Error)                         // createConnection rejects
    | InitializeFails(initError: Error)                       // the initialize request rejects
    | ServerAnswers(result: InitializeResult, initializedError: Option<Error>)

  datatype Step = Step(client: Client, outcome: Result<(), Error>)

  // ---------------------------------------------------------------------
  // Shutdown

  /** What `shutdown` does before its first `await`. */
  datatype ShutdownStep =
    | AlreadyDown          // stopped or initial: returns at once
    | JoinStop             // stopping: returns the pending stop
    | BeginStop(client: Client)
    | Refused(error: Error)

  function BeginShutdown(c: Client): (r: ShutdownStep)
    ensures c.state == Some(Stopped) || c.state == Some(Initial) ==> r == AlreadyDown
    ensures c.state == Some(Stopping) && c.stopPending ==> r == JoinStop
    ensures c.state == Some(Stopping) && !c.stopPending ==> r == Refused(StoppingWithoutPromise)
    ensures c.state == Some(Running) && c.connected ==>
              r == BeginStop(c.(state := Some(Stopping), initializeResult := None, stopPending := true))
    ensures (!(c.state == Some(Running) && c.connected) && c.state != Some(Stopped) && c.state != Some(Initial)
             && c.state != Some(Stopping)) ==> r == Refused(NotRunning)
  {
    if c.state == Some(Stopped) || c.state == Some(Initial) then AlreadyDown
    else if c.state == Some(Stopping) then
      if c.stopPending then JoinStop else Refused(StoppingWithoutPromise)
    else if c.state == Some(Running) && c.connected then
      BeginStop(c.(state := Some(Stopping), initializeResult := None, stopPending := true))
    else Refused(NotRunning)
  }

  /** How the race between the shutdown exchange and the timer settles. */
  datatype Race = ShutdownWins | TimerWins | ShutdownFails(error: Error)

  /** The `finally` of the race: whichever side wins the client ends up
      stopped with its start, stop and connection handles cleared. */
  function SettleStop(c: Client, race: Race): (r: Step)
    ensures r.client == c.(state := Some(Stopped), onStart := None, stopPending := false, connected := false)
    ensures race == ShutdownWins <==> r.outcome.Success?
    ensures race == TimerWins ==> r.outcome == Failure(StopTimedOut)
    ensures race.ShutdownFails? ==> r.outcome == Failure(race.error)
  {
    var settled := c.(state := Some(Stopped), onStart := None, stopPending := false, connected := false);
    match race
    case ShutdownWins => Step(settled, Success(()))
    case TimerWins => Step(settled, Failure(StopTimedOut))
    case ShutdownFails(e) => Step(settled, Failure(e))
  }

  /** `stop`: the shutdown, and the settling of the race when one runs. */
  function Stop(c: Client, race: Race): (r: Step)
    ensures BeginShutdown(c) == AlreadyDown ==> r == Step(c, Success(()))
    ensures BeginShutdown(c).Refused? ==> r == Step(c, Failure(BeginShutdown(c).error))
    ensures BeginShutdown(c).BeginStop? || BeginShutdown(c) == JoinStop ==>
              && r.client.state == Some(Stopped) && r.client.onStart.None? && !r.client.connected && !r.client.stopPending
              && (r.outcome.Success? <==> race == ShutdownWins)
              && (race == TimerWins ==> r.outcome == Failure(StopTimedOut))
              && (race.ShutdownFails? ==> r.outcome == Failure(race.error))
    ensures r.client.name == c.name && r.client.dynamicFeatures == c.dynamicFeatures && r.client.registered == c.registered
  {
    match BeginShutdown(c)
    case AlreadyDown => Step(c, Success(()))
    case Refused(e) => Step(c, Failure(e))
    case JoinStop => SettleStop(c, race)
    case BeginStop(stopping) => SettleStop(stopping, race)
  }

  // ---------------------------------------------------------------------
  // Start

  /** `start`. */
  function Start(c: Client, outcome: StartOutcome): (r: Step)
    ensures c.state == Some(Stopping) ==> r == Step(c, Failure(CurrentlyStopping))
    ensures c.state != Some(Stopping) && c.onStart.Some? ==> r == Step(c, c.onStart.value)
    ensures c.state != Some(Stopping) && c.onStart.None? ==>
              && r.client.onStart == Some(r.outcome)
              && (r.outcome.Success? <==> r.client.state == Some(Running))
              && (r.outcome.Failure? <==> r.client.state == Some(StartFailed))
    ensures c.state != Some(Stopping) && c.onStart.None? && outcome.ServerAnswers? ==>
              (r.outcome.Success? <==> CheckEncoding(outcome.result).Success? && outcome.initializedError.None?)
    ensures c.state != Some(Stopping) && c.onStart.None? && outcome.LaunchFails? ==>
              r.outcome == Failure(outcome.launchError) && r.client.state == Some(StartFailed)
    ensures c.state != Some(Stopping) && c.onStart.None? && outcome.InitializeFails? ==>
              r.outcome == Failure(outcome.initError) && r.client.state == Some(StartFailed)
    ensures c.state != Some(Stopping) && c.onStart.None? && outcome.ServerAnswers?
            && CheckEncoding(outcome.result).Failure? ==>
              r.outcome == Failure(CheckEncoding(outcome.result).error) && r.client.state == Some(StartFailed)
    ensures c.state != Some(Stopping) && c.onStart.None? && outcome.ServerAnswers?
            && CheckEncoding(outcome.result).Success? && outcome.initializedError.Some? ==>
              r.outcome == Failure(outcome.initializedError.value) && r.client.state == Some(StartFailed)
    ensures r.client.name == c.name && r.client.dynamicFeatures == c.dynamicFeatures && r.client.registered == c.registered
  {
    if c.state == Some(Stopping) then Step(c, Failure(CurrentlyStopping))
    else if c.onStart.Some? then Step(c, c.onStart.value)
    else
      match outcome
      case LaunchFails(e) =>
        Step(c.(state := Some(StartFailed), onStart := Some(Failure(e))), Failure(e))
      case InitializeFails(e) =>
        // the `stop()` issued from the failure path finds the client
        // starting and refuses, so only the failed start remains
        Step(c.(state := Some(StartFailed), onStart := Some(Failure(e)), connected := true), Failure(e))
      case ServerAnswers(result, initializedError) =>
        match CheckEncoding(result)
        case Failure(e) =>
          Step(c.(state := Some(StartFailed), onStart := Some(Failure(e)), connected := true), Failure(e))
        case Success(_) =>
          var running := c.(state := Some(Running), connected := true, initializeResult := Some(result),
                            capabilities := Some(ResolvedCapabilities(result.capabilities,
                                                   ResolveSync(result.capabilities.textDocumentSync))));
          match initializedError
          case None => Step(running.(onStart := Some(Success(()))), Success(()))
          case Some(e) =>
            // `stop()` from the failure path begins a shutdown of the
            // running client; the start then records its failure
            var stopping := BeginShutdown(running).client;
            Step(stopping.(state := Some(StartFailed), onStart := Some(Failure(e))), Failure(e))
  }

  /** The failure `initialize` reports to the editor before rethrowing:
      once the connection exists, a rejected `initialize` request, an
      unsupported encoding and a failed `initialized` notification are all
      reported; a failed launch only reaches the log. */
  function ReportedFailure(outcome: StartOutcome): (r: Option<Error>)
    ensures outcome.LaunchFails? ==> r.None?
    ensures outcome.InitializeFails? ==> r == Some(outcome.initError)
    ensures outcome.ServerAnswers? ==>
              (r.Some? <==> CheckEncoding(outcome.result).Failure? || outcome.initializedError.Some?)
  {
    match outcome
    case LaunchFails(_) => None
    case InitializeFails(e) => Some(e)
    case ServerAnswers(result, initializedError) =>
      match CheckEncoding(result)
      case Failure(e) => Some(e)
      case Success(_) => initializedError
  }

  /** A fresh start fails exactly when it either cannot launch or reports
      its failure, and the reported error is the one the start fails with. */
  lemma ReportedFailureIsStartFailure(c: Client, outcome: StartOutcome)
    requires c.state != Some(Stopping) && c.onStart.None?
    ensures ReportedFailure(outcome).Some? <==> Start(c, outcome).outcome.Failure? && !outcome.LaunchFails?
    ensures ReportedFailure(outcome).Some? ==> Start(c, outcome).outcome == Failure(ReportedFailure(outcome).value)
  {
  }

  /** A successful start resolves the sync options from the answer. */
  lemma StartRecordsCapabilities(c: Client, result: InitializeResult)
    requires c.state != Some(Stopping) && c.onStart.None?
    requires CheckEncoding(result).Success?
    ensures var r := Start(c, ServerAnswers(result, None));
            && r.client.state == Some(Running)
            && r.client.initializeResult == Some(result)
            && r.client.capabilities == Some(ResolvedCapabilities(result.capabilities,
                                              ResolveSync(result.capabilities.textDocumentSync)))
  {
  }

  /** `restart`: a stop, then a start if the stop did not reject. */
  function Restart(c: Client, race: Race, outcome: StartOutcome): (r: Step)
    ensures Stop(c, race).outcome.Failure? ==> r == Stop(c, race)
    ensures Stop(c, race).outcome.Success? ==> r == Start(Stop(c, race).client, outcome)
  {
    var stopped := Stop(c, race);
    if stopped.outcome.Failure? then stopped else Start(stopped.client, outcome)
  }

  /** Restarting a running client whose shutdown completes in time reaches
      a fresh start, whose outcome decides the new state. */
  lemma RestartRunning(c: Client, outcome: StartOutcome)
    requires c.state == Some(Running) && c.connected
    ensures var r := Restart(c, ShutdownWins, outcome);
            && r.client.onStart == Some(r.outcome)
            && (r.outcome.Success? <==> r.client.state == Some(Running))
            && (r.outcome.Failure? <==> r.client.state == Some(StartFailed))
  {
  }

  /** When the timer wins, the client is still stopped and cleared, but
      `restart` rejects before starting again. */
  lemma RestartTimedOut(c: Client, outcome: StartOutcome)
    requires c.state == Some(Running) && c.connected
    ensures Restart(c, TimerWins, outcome) ==
            Step(c.(state := Some(Stopped), onStart := None, stopPending := false, connected := false,
                    initializeResult := None), Failure(StopTimedOut))
  {
  }

  // ---------------------------------------------------------------------
  // Dynamic registration and routing

  /** `handleRegistrationRequest`: every registration is recorded under its
      method, later ones replacing earlier ones; the methods without a
      feature are reported, in order. */
  function Register(registered: map<string, Registration>, features: set<string>, regs: seq<Registration>)
    : (r: (map<string, Registration>, seq<string>))
    ensures |r.1| <= |regs|
    ensures forall m :: m in r.1 ==> m !in features
    decreases |regs|
  {
    if |regs| == 0 then (registered, [])
    else
      var rest := Register(registered[regs[0].regMethod := regs[0]], features, regs[1..]);
      (rest.0, (if regs[0].regMethod in features then [] else [regs[0].regMethod]) + rest.1)
  }

  /** Which methods are registered afterwards, and under which entry: the
      last registration of a method wins, and other methods keep theirs. */
  lemma {:induction false} RegisterLastWins(registered: map<string, Registration>, features: set<string>,
                                            regs: seq<Registration>, k: string)
    ensures k in Register(registered, features, regs).0 <==>
              k in registered || exists i :: 0 <= i < |regs| && regs[i].regMethod == k
    ensures (forall i :: 0 <= i < |regs| ==> regs[i].regMethod != k) && k in registered ==>
              Register(registered, features, regs).0[k] == registered[k]
    ensures forall i :: 0 <= i < |regs| && regs[i].regMethod == k
                        && (forall j :: i < j < |regs| ==> regs[j].regMethod != k) ==>
              Register(registered, features, regs).0[k] == regs[i]
    decreases |regs|
  {
    if |regs| > 0 {
      var tail := regs[1..];
      RegisterLastWins(registered[regs[0].regMethod := regs[0]], features, tail, k);
      assert forall i :: 1 <= i < |regs| ==> regs[i] == tail[i - 1];
      if exists i :: 0 <= i < |regs| && regs[i].regMethod == k {
        var i :| 0 <= i < |regs| && regs[i].regMethod == k;
        if i > 0 {
          assert tail[i - 1].regMethod == k;
        }
      }
      forall i | 0 <= i < |regs| && regs[i].regMethod == k && (forall j :: i < j < |regs| ==> regs[j].regMethod != k)
        ensures Register(registered, features, regs).0[k] == regs[i]
      {
        if i > 0 {
          assert tail[i - 1].regMethod == k;
          assert forall j :: i - 1 < j < |tail| ==> tail[j].regMethod != k by {
            forall j | i - 1 < j < |tail|
              ensures tail[j].regMethod != k
            {
              assert tail[j] == regs[j + 1];
            }
          }
        } else {
          assert forall j :: 0 <= j < |tail| ==> tail[j].regMethod != k by {
            forall j | 0 <= j < |tail|
              ensures tail[j].regMethod != k
            {
              assert tail[j] == regs[j + 1];
            }
          }
        }
      }
    }
  }

  /** The reported methods are exactly those registered without a feature. */
  lemma {:induction false} RegisterReportsMissing(registered: map<string, Registration>, features: set<string>,
                                                  regs: seq<Registration>, m: string)
    ensures m in Register(registered, features, regs).1 <==>
              m !in features && exists i :: 0 <= i < |regs| && regs[i].regMethod == m
    decreases |regs|
  {
    if |regs| > 0 {
      var tail := regs[1..];
      RegisterReportsMissing(registered[regs[0].regMethod := regs[0]], features, tail, m);
      if exists i :: 0 <= i < |regs| && regs[i].regMethod == m {
        var i :| 0 <= i < |regs| && regs[i].regMethod == m;
        if i > 0 {
          assert tail[i - 1].regMethod == m;
        }
      }
      if exists i :: 0 <= i < |tail| && tail[i].regMethod == m {
        var i :| 0 <= i < |tail| && tail[i].regMethod == m;
        assert regs[i + 1].regMethod == m;
      }
    }
  }

  function HandleRegistration(c: Client, regs: seq<Registration>): (r: (Client, seq<string>))
    ensures r.0 == c.(registered := Register(c.registered, c.dynamicFeatures, regs).0)
    ensures r.1 == Register(c.registered, c.dynamicFeatures, regs).1
  {
    var (m, errors) := Register(c.registered, c.dynamicFeatures, regs);
    (c.(registered := m), errors)
  }

  /** `on(method, params)`: the feature a method is routed to; a method
      without a feature makes the call reject. */
  function Route(c: Client, meth: string): (r: Result<string, Error>)
    ensures meth in c.dynamicFeatures <==> r == Success(meth)
    ensures meth !in c.dynamicFeatures ==> r == Failure(NoFeature(meth))
  {
    if meth in c.dynamicFeatures then Success(meth) else Failure(NoFeature(meth))
  }

  // ---------------------------------------------------------------------
  // Traces

  datatype Event =
    | StartEvent(outcome: StartOutcome)
    | StopEvent(race: Race)
    | RestartEvent(restartRace: Race, restartOutcome: StartOutcome)
    | RegisterEvent(regs: seq<Registration>)
    | SettleEvent(settleRace: Race)   // a pending shutdown race settles

  /** The `finally` of a pending shutdown race, run whenever it settles. */
  function Settle(c: Client, race: Race): (r: Client)
    ensures !c.stopPending ==> r == c
    ensures c.stopPending ==> r.state == Some(Stopped) && r.onStart.None? && !r.stopPending && !r.connected
    ensures r.name == c.name && r.dynamicFeatures == c.dynamicFeatures && r.registered == c.registered
  {
    if c.stopPending then SettleStop(c, race).client else c
  }

  function Apply(c: Client, e: Event): Client {
    match e
    case StartEvent(outcome) => Start(c, outcome).client
    case StopEvent(race) => Stop(c, race).client
    case RestartEvent(race, outcome) => Restart(c, race, outcome).client
    case RegisterEvent(regs) => HandleRegistration(c, regs).0
    case SettleEvent(race) => Settle(c, race)
  }

  function Run(c: Client, events: seq<Event>): Client
    decreases |events|
  {
    if |events| == 0 then c else Run(Apply(c, events[0]), events[1..])
  }

  /** No event renames a client or changes the features it serves; only a
      registration request changes its registrations. */
  lemma {:induction false} RunKeepsIdentity(c: Client, events: seq<Event>)
    ensures Run(c, events).name == c.name && Run(c, events).dynamicFeatures == c.dynamicFeatures
    ensures (forall i :: 0 <= i < |events| ==> !events[i].RegisterEvent?) ==> Run(c, events).registered == c.registered
    decreases |events|
  {
    if |events| > 0 {
      RunKeepsIdentity(Apply(c, events[0]), events[1..]);
    }
  }

  /** What holds between operations. */
  function Valid(c: Client): (ok: bool)
    ensures ok ==> c.state.None? || c.state == Some(Running) || Inactive(c)
    ensures ok && c.connected ==> c.state.Some?
    ensures ok && c.state == Some(Running) ==> !Inactive(c) && c.connected
  {
    && (c.state.Some? ==> !c.state.value.Initial? && !c.state.value.Starting?)
    && (c.state.None? ==> c.onStart.None? && !c.stopPending && !c.connected)
    && (c.state == Some(Running) ==> c.connected && c.onStart == Some(Success(())) && !c.stopPending)
    && (c.state == Some(StartFailed) ==> c.onStart.Some? && c.onStart.value.Failure?)
    && (c.state == Some(Stopping) ==> c.stopPending)
    && (c.state == Some(Stopped) ==> !c.stopPending)
    && (c.stopPending ==> c.connected)
  }

  lemma StartValid(c: Client, outcome: StartOutcome)
    requires Valid(c)
    ensures Valid(Start(c, outcome).client)
  {
    if c.state != Some(Stopping) && c.onStart.None? && outcome.ServerAnswers? && CheckEncoding(outcome.result).Success? {
      var running := c.(state := Some(Running), connected := true, initializeResult := Some(outcome.result),
                        capabilities := Some(ResolvedCapabilities(outcome.result.capabilities,
                                               ResolveSync(outcome.result.capabilities.textDocumentSync))));
      assert BeginShutdown(running).BeginStop?;
      assert !c.stopPending by {
        match c.state
        case None =>
        case Some(st) => assert st == Stopped;
      }
    }
  }

  lemma StopValid(c: Client, race: Race)
    requires Valid(c)
    ensures Valid(Stop(c, race).client)
  {
  }

  lemma ApplyValid(c: Client, e: Event)
    requires Valid(c)
    ensures Valid(Apply(c, e))
  {
    match e
    case StartEvent(outcome) => StartValid(c, outcome);
    case StopEvent(race) => StopValid(c, race);
    case RestartEvent(race, outcome) =>
      StopValid(c, race);
      StartValid(Stop(c, race).client, outcome);
    case RegisterEvent(regs) =>
    case SettleEvent(race) =>
  }

  /** From construction on, every state the client reaches is valid; in
      particular `Initial` is never entered. */
  lemma {:induction false} RunValid(c: Client, events: seq<Event>)
    requires Valid(c)
    ensures Valid(Run(c, events))
    ensures Run(c, events).state != Some(Initial)
    decreases |events|
  {
    if |events| > 0 {
      ApplyValid(c, events[0]);
      RunValid(Apply(c, events[0]), events[1..]);
    }
  }

  lemma NewClientValid(project: string, language: string, features: set<string>)
    ensures Valid(NewClient(project, language, features))
  {
  }

  /** The guards of `sendRequest`, `sendNotification` and `onRequest`
      follow the lifecycle: a running client passes every call to its
      connection, and once a start has failed or a stop has completed every
      call is refused. */
  lemma GuardsFollowLifecycle<T>(c: Client, reply: Reply<T>, race: Race, outcome: StartOutcome)
    requires Valid(c)
    ensures c.state == Some(Running) ==> Send(c, reply) == reply && OnRequest(c) == Success(true)
    ensures c.state != Some(Stopping) && c.onStart.None? ==>
              var s := Start(c, outcome);
              && (s.outcome.Success? ==> Send(s.client, reply) == reply && OnRequest(s.client) == Success(true))
              && (s.outcome.Failure? ==> Send(s.client, reply) == Rejected(ConnectionInactive)
                                         && OnRequest(s.client) == Failure(NotReady))
    ensures BeginShutdown(c).BeginStop? || BeginShutdown(c) == JoinStop ==>
              Send(Stop(c, race).client, reply) == Rejected(ConnectionInactive)
              && OnRequest(Stop(c, race).client) == Failure(NotReady)
  {
    if c.state != Some(Stopping) && c.onStart.None? {
      StartValid(c, outcome);
    }
  }

  /** A failed start with no stop under way is final: every later start
      returns the recorded failure without reconnecting, and stopping is
      refused. */
  lemma {:induction false} StartFailedIsFinal(c: Client, events: seq<Event>)
    requires Valid(c) && c.state == Some(StartFailed) && !c.stopPending
    ensures Run(c, events).state == Some(StartFailed)
    ensures Run(c, events).onStart == c.onStart
    ensures Run(c, events).connected == c.connected
    decreases |events|
  {
    if |events| > 0 {
      var next := Apply(c, events[0]);
      assert next.state == Some(StartFailed) && !next.stopPending;
      assert next.onStart == c.onStart && next.connected == c.connected;
      StartFailedIsFinal(next, events[1..]);
    }
  }

  /** When only the `initialized` notification fails, the client is marked
      failed while the shutdown the failure path began is still pending, so
      a `stop` is refused; once that race settles, the client is stopped
      and a new start runs afresh. */
  lemma StartFailedThenStopped(c: Client, result: InitializeResult, e: Error, race: Race, again: StartOutcome)
    requires Valid(c) && c.state != Some(Stopping) && c.onStart.None?
    requires CheckEncoding(result).Success?
    ensures var failed := Start(c, ServerAnswers(result, Some(e))).client;
            && failed.state == Some(StartFailed) && failed.stopPending
            && BeginShutdown(failed) == Refused(NotRunning)
            && Settle(failed, race).state == Some(Stopped)
            && var r := Start(Settle(failed, race), again);
               && r.client.onStart == Some(r.outcome)
               && (r.outcome.Success? <==> r.client.state == Some(Running))
  {
  }
}

=== FILE: completion.dfy ===
/** features/completion.ts: the completion request (trigger detection,
    filtering, truncation and tagging of the items handed to the editor) and
    the single-flight `completionItem/resolve`.  The client members the
    feature reads (`checkCapabilityForMethod`, `triggerCharacters`, `name`,
    `labelCompletionMap`) live in code that is not part of this model, so
    they are fields of `FeatureClient`. */
module Completion {
  import opened Wrappers
  import opened Protocol
  import FilterItems

  const CompletionMethod := "textDocument/completion"
  const ResolveMethod := "completionItem/resolve"

  /** `max_completion_size`. */
  const MaxCompletionSize := 100
  /** Longest `detail` shown unabridged. */
  const DetailLimit := 30

  // ---------------------------------------------------------------------
  // Decimal rendering of an index (`${idx}`)

  predicate IsDigit(c: char) {
    '0' <= c <= '9'
  }

  function Digit(d: nat): (c: char)
    requires d < 10
    ensures IsDigit(c) && c as int - '0' as int == d
  {
    ['0', '1', '2', '3', '4', '5', '6', '7', '8', '9'][d]
  }

  /** The shortest decimal numeral of `n`. */
  function Decimal(n: nat): (s: string)
    ensures |s| > 0
    ensures forall i :: 0 <= i < |s| ==> IsDigit(s[i])
  {
    if n < 10 then [Digit(n)] else Decimal(n / 10) + [Digit(n % 10)]
  }

  /** Reading a numeral back. */
  function ParseDecimal(s: string): int
    requires forall i :: 0 <= i < |s| ==> IsDigit(s[i])
  {
    if |s| == 0 then 0
    else ParseDecimal(s[..|s| - 1]) * 10 + (s[|s| - 1] as int - '0' as int)
  }

  lemma {:induction false} DecimalRoundTrip(n: nat)
    ensures ParseDecimal(Decimal(n)) == n
  {
    if n >= 10 {
      var s := Decimal(n);
      assert s[..|s| - 1] == Decimal(n / 10);
      DecimalRoundTrip(n / 10);
    }
  }

  lemma DecimalInjective(a: nat, b: nat)
    requires Decimal(a) == Decimal(b)
    ensures a == b
  {
    DecimalRoundTrip(a);
    DecimalRoundTrip(b);
  }

  // ---------------------------------------------------------------------
  // The `no` tag

  /** `${label}-${idx}`. */
  function Tag(text: string, idx: nat): (r: string)
    ensures |r| > |text| && r[|text|] == '-'
    ensures r[..|text|] == text && r[|text| + 1 ..] == Decimal(idx)
  {
    text + "-" + Decimal(idx)
  }

  /** Two tags agree only when label and index both agree: the numeral
      holds no `-`, so the last `-` separates the two parts. */
  lemma TagInjective(a: string, i: nat, b: string, j: nat)
    requires Tag(a, i) == Tag(b, j)
    ensures a == b && i == j
  {
    var s := Tag(a, i);
    assert |a| == |b|;
    assert Decimal(i) == s[|a| + 1 ..] == Decimal(j);
    DecimalInjective(i, j);
  }

  // ---------------------------------------------------------------------
  // Detail truncation

  function Abridge(detail: string): (r: string)
    ensures |detail| <= DetailLimit ==> r == detail
    ensures |detail| > DetailLimit ==>
              |r| == DetailLimit + 3 && r[..3] == "..." && r[3..] == detail[|detail| - DetailLimit..]
  {
    if |detail| > DetailLimit then "..." + detail[|detail| - DetailLimit..] else detail
  }

  /** `if (item.detail && item.detail.length > 30) item.detail = ...`. */
  function AbridgeDetail(item: CompletionItem): (r: CompletionItem)
    ensures r == item.(detail := r.detail)
    ensures item.detail.None? ==> r.detail.None?
    ensures item.detail.Some? ==> r.detail == Some(Abridge(item.detail.value))
  {
    match item.detail
    case None => item
    case Some(d) => item.(detail := Some(Abridge(d)))
  }

  // ---------------------------------------------------------------------
  // Completion request

  datatype TriggerKind = Invoked | TriggerCharacter

  datatype CompletionContext = CompletionContext(triggerKind: TriggerKind, triggerCharacter: Option<string>)

  datatype CompletionParams = CompletionParams(uri: Uri, position: Position, context: CompletionContext)

  /** `EmacsCompletionParams`: the editor's request. */
  datatype EmacsParams = EmacsParams(line: string, prefix: string, startPoint: int, uri: Uri, position: Position)

  /** A completion response that is not `null`: a `CompletionList` or a bare array. */
  datatype CompletionResponse =
    | ItemList(items: seq<CompletionItem>)
    | ItemArray(elems: seq<CompletionItem>)

  /** `EmacsCompletionItem`: a server item tagged for the editor. */
  datatype EmacsItem = EmacsItem(
    item: CompletionItem,
    no: string,
    source: string,
    start: int,
    end: int,
    resolving: Option<Reply<CompletionItem>>)

  datatype FeatureClient = FeatureClient(
    name: string,
    capable: set<string>,
    triggerCharacters: seq<string>,
    labelCompletionMap: map<string, EmacsItem>)

  predicate EndsWith(s: string, suffix: string) {
    |suffix| <= |s| && s[|s| - |suffix|..] == suffix
  }

  /** `line.slice(0, position.character)`. */
  function Pretext(line: string, character: nat): (r: string)
    ensures |r| <= |line| && r == line[..|r|]
    ensures |r| == if character < |line| then character else |line|
  {
    if character < |line| then line[..character] else line
  }

  /** `triggers[i]` is the first entry the text ends with. */
  predicate FirstMatchAt(pretext: string, triggers: seq<string>, i: int) {
    && 0 <= i < |triggers|
    && EndsWith(pretext, triggers[i])
    && forall j :: 0 <= j < i ==> !EndsWith(pretext, triggers[j])
  }

  /** `triggerCharacters.find(t => pretext.endsWith(t))`. */
  function FindTrigger(pretext: string, triggers: seq<string>): (r: Option<string>)
    ensures r.None? <==> forall i :: 0 <= i < |triggers| ==> !EndsWith(pretext, triggers[i])
    ensures r.Some? ==> exists i :: FirstMatchAt(pretext, triggers, i) && triggers[i] == r.value
  {
    if |triggers| == 0 then None
    else if EndsWith(pretext, triggers[0]) then Some(triggers[0])
    else
      var r := FindTrigger(pretext, triggers[1..]);
      assert forall i :: 1 <= i < |triggers| ==> triggers[i] == triggers[1..][i - 1];
      if r.Some? then
        var i :| FirstMatchAt(pretext, triggers[1..], i) && triggers[1..][i] == r.value;
        assert FirstMatchAt(pretext, triggers, i + 1);
        r
      else r
  }

  /** The context sent with the request: `triggerKind` follows the
      truthiness of the trigger found, so an empty trigger string counts as
      `Invoked` while still being sent. */
  function Context(pretext: string, triggers: seq<string>): (r: CompletionContext)
    ensures r.triggerCharacter == FindTrigger(pretext, triggers)
    ensures r.triggerKind == TriggerCharacter <==>
              exists i :: FirstMatchAt(pretext, triggers, i) && |triggers[i]| > 0
  {
    var t := FindTrigger(pretext, triggers);
    var kind := if t.Some? && |t.value| > 0 then TriggerCharacter else Invoked;
    CompletionContext(kind, t)
  }

  /** One item of the answer: the filtered item at `idx`, tagged. */
  function TagItem(it: CompletionItem, idx: nat, source: string, startPoint: int, prefix: string): (r: EmacsItem)
    ensures r.no == Tag(it.labelText, idx) && r.source == source && r.start == startPoint
    ensures r.end - r.start == |it.labelText| - |prefix|
    ensures r.item == AbridgeDetail(it) && r.resolving.None?
  {
    EmacsItem(AbridgeDetail(it), Tag(it.labelText, idx), source, startPoint,
              startPoint + (|it.labelText| - |prefix|), None)
  }

  function TagAll(items: seq<CompletionItem>, source: string, startPoint: int, prefix: string): (r: seq<EmacsItem>)
    ensures |r| == |items|
    ensures forall i :: 0 <= i < |r| ==> r[i] == TagItem(items[i], i, source, startPoint, prefix)
  {
    seq(|items|, i requires 0 <= i < |items| => TagItem(items[i], i, source, startPoint, prefix))
  }

  /** Sequential `labelCompletionMap.set(no, item)`. */
  function Record(m: map<string, EmacsItem>, items: seq<EmacsItem>): map<string, EmacsItem>
    decreases |items|
  {
    if |items| == 0 then m else Record(m[items[0].no := items[0]], items[1..])
  }

  predicate DistinctTags(items: seq<EmacsItem>) {
    forall i, j :: 0 <= i < j < |items| ==> items[i].no != items[j].no
  }

  lemma {:induction false} RecordExact(m: map<string, EmacsItem>, items: seq<EmacsItem>)
    requires DistinctTags(items)
    ensures forall k :: k in Record(m, items) <==> k in m || exists i :: 0 <= i < |items| && items[i].no == k
    ensures forall i :: 0 <= i < |items| ==> items[i].no in Record(m, items)
    ensures forall i :: 0 <= i < |items| ==> Record(m, items)[items[i].no] == items[i]
    ensures forall k :: k in m && (forall i :: 0 <= i < |items| ==> items[i].no != k) ==> Record(m, items)[k] == m[k]
    decreases |items|
  {
    if |items| > 0 {
      var m' := m[items[0].no := items[0]];
      var rest := items[1..];
      assert DistinctTags(rest);
      RecordExact(m', rest);
      assert Record(m, items) == Record(m', rest);
      forall i | 0 <= i < |items|
        ensures items[i].no in Record(m, items) && Record(m, items)[items[i].no] == items[i]
      {
        if i == 0 {
          assert forall j :: 0 <= j < |rest| ==> rest[j].no != items[0].no;
        } else {
          assert items[i] == rest[i - 1];
        }
      }
    }
  }

  /** Distinct positions carry distinct tags. */
  lemma TagsDistinct(items: seq<CompletionItem>, source: string, startPoint: int, prefix: string)
    ensures DistinctTags(TagAll(items, source, startPoint, prefix))
  {
    var r := TagAll(items, source, startPoint, prefix);
    forall i, j | 0 <= i < j < |r|
      ensures r[i].no != r[j].no
    {
      if r[i].no == r[j].no {
        TagInjective(items[i].labelText, i, items[j].labelText, j);
      }
    }
  }

  datatype CompletionOutcome = CompletionOutcome(
    labelCompletionMap: map<string, EmacsItem>,
    request: Option<CompletionParams>,
    result: Result<seq<EmacsItem>, Error>)

  function Take(s: seq<CompletionItem>, n: nat): (r: seq<CompletionItem>)
    ensures |r| <= n && |r| <= |s| && r == s[..|r|]
    ensures |s| <= n ==> r == s
  {
    if |s| <= n then s else s[..n]
  }

  /** The items handed to the editor for a `CompletionList` response. */
  function Answer(client: FeatureClient, params: EmacsParams, items: seq<CompletionItem>): seq<EmacsItem>
  {
    var pretext := Pretext(params.line, params.position.character);
    TagAll(Take(FilterItems.Filter(pretext, items), MaxCompletionSize), client.name, params.startPoint, params.prefix)
  }

  /** `CompletionFeature.runWith`: `resp` is how the server's answer settles. */
  function RunCompletion(client: FeatureClient, params: EmacsParams, resp: Reply<CompletionResponse>): (r: CompletionOutcome)
    ensures CompletionMethod !in client.capable ==>
              r == CompletionOutcome(client.labelCompletionMap, None, Success([]))
    ensures CompletionMethod in client.capable ==>
              r.request == Some(CompletionParams(params.uri, params.position,
                                  Context(Pretext(params.line, params.position.character), client.triggerCharacters)))
    ensures CompletionMethod in client.capable && resp.Rejected? ==>
              r.result == Failure(resp.error) && r.labelCompletionMap == map[]
    ensures CompletionMethod in client.capable && (resp == Resolved(None) || (resp.Resolved? && resp.value.Some? && resp.value.value.ItemArray?)) ==>
              r.result == Success([]) && r.labelCompletionMap == map[]
  {
    if CompletionMethod !in client.capable then
      CompletionOutcome(client.labelCompletionMap, None, Success([]))
    else
      var pretext := Pretext(params.line, params.position.character);
      var request := CompletionParams(params.uri, params.position, Context(pretext, client.triggerCharacters));
      match resp
      case Rejected(e) => CompletionOutcome(map[], Some(request), Failure(e))
      case Resolved(None) => CompletionOutcome(map[], Some(request), Success([]))
      case Resolved(Some(ItemArray(_))) => CompletionOutcome(map[], Some(request), Success([]))
      case Resolved(Some(ItemList(items))) =>
        var answer := Answer(client, params, items);
        CompletionOutcome(Record(map[], answer), Some(request), Success(answer))
  }

  /** What a `CompletionList` answer is: at most 100 of the filtered items,
      in filter order, each tagged with its position, every one taken from
      the server's answer. */
  lemma CompletionAnswer(client: FeatureClient, params: EmacsParams, items: seq<CompletionItem>)
    requires CompletionMethod in client.capable
    ensures var r := RunCompletion(client, params, Resolved(Some(ItemList(items))));
            var filtered := FilterItems.Filter(Pretext(params.line, params.position.character), items);
            && r.result.Success?
            && |r.result.value| == (if |filtered| < MaxCompletionSize then |filtered| else MaxCompletionSize)
            && (forall i :: 0 <= i < |r.result.value| ==>
                  r.result.value[i] == TagItem(filtered[i], i, client.name, params.startPoint, params.prefix))
            && (forall i :: 0 <= i < |r.result.value| ==> multiset(items)[filtered[i]] > 0)
  {
    var filtered := FilterItems.Filter(Pretext(params.line, params.position.character), items);
    var answer := Answer(client, params, items);
    assert RunCompletion(client, params, Resolved(Some(ItemList(items)))).result == Success(answer);
    forall i | 0 <= i < |answer|
      ensures multiset(items)[filtered[i]] > 0
    {
      assert filtered[i] in multiset(filtered);
      assert multiset(filtered) <= multiset(items);
    }
  }

  /** After a `CompletionList` answer the label map holds exactly the items
      handed to the editor, each under its tag. */
  lemma CompletionAnswerMap(client: FeatureClient, params: EmacsParams, items: seq<CompletionItem>)
    requires CompletionMethod in client.capable
    ensures var r := RunCompletion(client, params, Resolved(Some(ItemList(items))));
            && r.result.Success?
            && (forall k :: k in r.labelCompletionMap <==> exists i :: 0 <= i < |r.result.value| && r.result.value[i].no == k)
            && (forall i :: 0 <= i < |r.result.value| ==>
                  (r.result.value[i].no in r.labelCompletionMap
                   && r.labelCompletionMap[r.result.value[i].no] == r.result.value[i]))
  {
    var filtered := FilterItems.Filter(Pretext(params.line, params.position.character), items);
    var answer := Answer(client, params, items);
    var r := RunCompletion(client, params, Resolved(Some(ItemList(items))));
    assert r.result == Success(answer) && r.labelCompletionMap == Record(map[], answer);
    TagsDistinct(Take(filtered, MaxCompletionSize), client.name, params.startPoint, params.prefix);
    RecordExact(map[], answer);
  }

  // ---------------------------------------------------------------------
  // Resolve

  /** The documentation a more detailed answer carries. */
  function EnrichedDoc(detail: string, doc: Option<Documentation>): (r: Documentation)
    ensures doc.None? || doc == Some(PlainDoc("")) ==> r == MarkupDoc("markdown", detail)
    ensures doc.Some? && doc.value.PlainDoc? && doc.value.text != "" ==>
              r == PlainDoc(detail + "\n\n" + doc.value.text)
    ensures doc.Some? && doc.value.MarkupDoc? ==>
              r == MarkupDoc(doc.value.kind, "```" + detail + "```\\n\\n" + doc.value.value)
  {
    match doc
    case None => MarkupDoc("markdown", detail)
    case Some(PlainDoc(text)) =>
      if text == "" then MarkupDoc("markdown", detail) else PlainDoc(detail + "\n\n" + text)
    case Some(MarkupDoc(kind, value)) => MarkupDoc(kind, "```" + detail + "```\\n\\n" + value)
  }

  /** The edit of the returned item: an insert/replace edit becomes a
      replace `TextEdit`. */
  function ReplaceEdit(item: CompletionItem): (r: CompletionItem)
    ensures r == item.(textEdit := r.textEdit)
    ensures item.textEdit.Some? && item.textEdit.value.InsertReplaceEdit? ==>
              r.textEdit == Some(PlainEdit(TextEdit(item.textEdit.value.replace, item.textEdit.value.newText)))
    ensures !(item.textEdit.Some? && item.textEdit.value.InsertReplaceEdit?) ==> r == item
  {
    match item.textEdit
    case Some(InsertReplaceEdit(newText, _, replace)) => item.(textEdit := Some(PlainEdit(TextEdit(replace, newText))))
    case _ => item
  }

  predicate Truthy(s: Option<string>) {
    s.Some? && |s.value| > 0
  }

  /** The in-place enrichment of the server's answer when it brings a
      truthy `detail` different from the one already shown. */
  function Enrich(resp: CompletionItem, shownDetail: Option<string>): (r: CompletionItem)
    ensures !Truthy(resp.detail) || resp.detail == shownDetail ==> r == resp
    ensures Truthy(resp.detail) && resp.detail != shownDetail ==>
              r == resp.(documentation := Some(EnrichedDoc(resp.detail.value, resp.documentation)),
                         detail := Some(Abridge(resp.detail.value)))
  {
    if Truthy(resp.detail) && resp.detail != shownDetail then
      resp.(documentation := Some(EnrichedDoc(resp.detail.value, resp.documentation)),
            detail := Some(Abridge(resp.detail.value)))
    else resp
  }

  datatype ResolveOutcome = ResolveOutcome(
    labelCompletionMap: map<string, EmacsItem>,
    request: Option<EmacsItem>,
    result: Result<Option<CompletionItem>, Error>)

  /** `CompletionItemResolveFeature.runWith(createParams(params))`, as
      written: `server` is how a new resolve request settles.  The promise
      kept in `resolving` resolves to the very object that is then enriched
      in place, so the cache ends up holding the enriched item. */
  function Resolve(client: FeatureClient, key: string, server: Reply<CompletionItem>): (r: ResolveOutcome)
    ensures ResolveMethod !in client.capable || key !in client.labelCompletionMap ==>
              r == ResolveOutcome(client.labelCompletionMap, None, Success(None))
    ensures ResolveMethod in client.capable && key in client.labelCompletionMap ==>
              var it := client.labelCompletionMap[key];
              && (r.request.Some? <==> it.resolving.None?)
              && (r.request.Some? ==> r.request == Some(it))
              && key in r.labelCompletionMap
              && r.labelCompletionMap[key].resolving.Some?
              && r.labelCompletionMap[key].item == it.item
              && (forall k :: k != key ==> (k in r.labelCompletionMap <==> k in client.labelCompletionMap))
              && (forall k :: k != key && k in client.labelCompletionMap ==>
                    r.labelCompletionMap[k] == client.labelCompletionMap[k])
    ensures ResolveMethod in client.capable && key in client.labelCompletionMap ==>
              var it := client.labelCompletionMap[key];
              var pending := if it.resolving.Some? then it.resolving.value else server;
              && (pending.Rejected? ==> r.result == Failure(pending.error))
              && (pending == Resolved(None) ==> r.result == Success(None))
              && (pending.Resolved? && pending.value.Some? ==>
                    var enriched := Enrich(pending.value.value, it.item.detail);
                    && r.result == Success(Some(ReplaceEdit(enriched)))
                    && r.labelCompletionMap[key].resolving == Some(Resolved(Some(enriched))))
  {
    var m := client.labelCompletionMap;
    if ResolveMethod !in client.capable || key !in m then
      ResolveOutcome(m, None, Success(None))
    else
      var it := m[key];
      var pending := if it.resolving.Some? then it.resolving.value else server;
      var request := if it.resolving.Some? then None else Some(it);
      match pending
      case Rejected(e) =>
        ResolveOutcome(m[key := it.(resolving := Some(pending))], request, Failure(e))
      case Resolved(None) =>
        ResolveOutcome(m[key := it.(resolving := Some(pending))], request, Success(None))
      case Resolved(Some(resp)) =>
        var enriched := Enrich(resp, it.item.detail);
        ResolveOutcome(m[key := it.(resolving := Some(Resolved(Some(enriched))))], request,
                       Success(Some(ReplaceEdit(enriched))))
  }

  /** Resolve as evidently intended: the cache keeps the server's answer
      and every resolve derives the result from it afresh. */
  function ResolveFixed(client: FeatureClient, key: string, server: Reply<CompletionItem>): (r: ResolveOutcome)
    ensures ResolveMethod !in client.capable || key !in client.labelCompletionMap ==>
              r == ResolveOutcome(client.labelCompletionMap, None, Success(None))
    ensures ResolveMethod in client.capable && key in client.labelCompletionMap ==>
              var it := client.labelCompletionMap[key];
              var pending := if it.resolving.Some? then it.resolving.value else server;
              && (r.request.Some? <==> it.resolving.None?)
              && r.labelCompletionMap == client.labelCompletionMap[key := it.(resolving := Some(pending))]
              && (pending.Rejected? ==> r.result == Failure(pending.error))
              && (pending == Resolved(None) ==> r.result == Success(None))
              && (pending.Resolved? && pending.value.Some? ==>
                    r.result == Success(Some(ReplaceEdit(Enrich(pending.value.value, it.item.detail)))))
  {
    var m := client.labelCompletionMap;
    if ResolveMethod !in client.capable || key !in m then
      ResolveOutcome(m, None, Success(None))
    else
      var it := m[key];
      var pending := if it.resolving.Some? then it.resolving.value else server;
      var request := if it.resolving.Some? then None else Some(it);
      var m' := m[key := it.(resolving := Some(pending))];
      match pending
      case Rejected(e) => ResolveOutcome(m', request, Failure(e))
      case Resolved(None) => ResolveOutcome(m', request, Success(None))
      case Resolved(Some(resp)) => ResolveOutcome(m', request, Success(Some(ReplaceEdit(Enrich(resp, it.item.detail)))))
  }

  /** On a first resolve of an item the code as written and the corrected
      resolve agree: the same request and the same answer. */
  lemma ResolveFirstAgrees(client: FeatureClient, key: string, server: Reply<CompletionItem>)
    requires key in client.labelCompletionMap ==> client.labelCompletionMap[key].resolving.None?
    ensures Resolve(client, key, server).request == ResolveFixed(client, key, server).request
    ensures Resolve(client, key, server).result == ResolveFixed(client, key, server).result
  {
  }

  /** Single flight: once an item has been resolved, resolving it again
      sends no request, whatever a new request would have answered; with
      the fixed cache it also answers exactly as the first time. */
  lemma ResolveTwice(client: FeatureClient, key: string, first: Reply<CompletionItem>, second: Reply<CompletionItem>)
    requires ResolveMethod in client.capable && key in client.labelCompletionMap
    ensures var r1 := ResolveFixed(client, key, first);
            var r2 := ResolveFixed(client.(labelCompletionMap := r1.labelCompletionMap), key, second);
            r2.request.None? && r2.result == r1.result && r2.labelCompletionMap == r1.labelCompletionMap
  {
  }

  /** As written, too, a second resolve sends no request. */
  lemma ResolveSingleFlight(client: FeatureClient, key: string, first: Reply<CompletionItem>, second: Reply<CompletionItem>)
    requires ResolveMethod in client.capable && key in client.labelCompletionMap
    ensures var r1 := Resolve(client, key, first);
            Resolve(client.(labelCompletionMap := r1.labelCompletionMap), key, second).request.None?
  {
  }

  /** As written, the second resolve of an item whose `detail` the server
      refined re-applies the enrichment to the cached, already enriched
      answer: the documentation gains the detail a second time. */
  lemma ResolveTwiceEnrichesTwice()
    ensures var shown := EmacsItem(CompletionItem("x", None, None, None, None, None, None), "x-0", "p:ts", 0, 1, None);
            var client := FeatureClient("p:ts", {ResolveMethod}, [], map["x-0" := shown]);
            var answer := CompletionItem("x", None, Some("int"), None, None, None, None);
            var r1 := Resolve(client, "x-0", Resolved(Some(answer)));
            var r2 := Resolve(client.(labelCompletionMap := r1.labelCompletionMap), "x-0", Rejected(Transport("unused")));
            && r1.result == Success(Some(answer.(documentation := Some(MarkupDoc("markdown", "int")))))
            && r2.result == Success(Some(answer.(documentation := Some(MarkupDoc("markdown", "```int```\\n\\nint")))))
            && r2.result != r1.result
  {
    var shown := EmacsItem(CompletionItem("x", None, None, None, None, None, None), "x-0", "p:ts", 0, 1, None);
    var client := FeatureClient("p:ts", {ResolveMethod}, [], map["x-0" := shown]);
    var answer := CompletionItem("x", None, Some("int"), None, None, None, None);
    var enriched := answer.(documentation := Some(MarkupDoc("markdown", "int")));
    assert Enrich(answer, None) == enriched;
    var r1 := Resolve(client, "x-0", Resolved(Some(answer)));
    assert r1.labelCompletionMap == map["x-0" := shown.(resolving := Some(Resolved(Some(enriched))))];
    var twice := answer.(documentation := Some(MarkupDoc("markdown", "```int```\\n\\nint")));
    assert "```" + "int" + "```\\n\\n" + "int" == "```int```\\n\\nint";
    assert EnrichedDoc("int", Some(MarkupDoc("markdown", "int"))) == MarkupDoc("markdown", "```int```\\n\\nint");
    assert Enrich(enriched, None) == twice;
    assert "```int```\\n\\nint" != "int";
  }
}

=== FILE: diagnostics.dfy ===
/** diagnostics.ts: the diagnostics the servers publish, kept per project
    root as a list of `(source, uri, diagnostics)` items.  The file-to-
    project index (`filePathToProject` of the `./project` module, not part
    of this model) and `URI.file(path).toString()` enter as parameters. */
module Diagnostics {
  import opened Wrappers
  import opened Protocol

  /** The editor command every update triggers. */
  const FlycheckReport := "lsp-rocks--diagnostics-flycheck-report"

  type Diagnostic = Json

  datatype DiagnosticItem = DiagnosticItem(source: string, uri: Uri, diagnostics: seq<Diagnostic>)

  /** `diagnosticMap`. */
  type Store = map<string, seq<DiagnosticItem>>

  /** No two items of a project share both document and source. */
  predicate Unique(items: seq<DiagnosticItem>) {
    forall i, j :: 0 <= i < j < |items| ==>
      !(items[i].uri == items[j].uri && items[i].source == items[j].source)
  }

  predicate WellFormed(store: Store) {
    forall p :: p in store ==> Unique(store[p])
  }

  /** The diagnostics of the items for `uri`, concatenated in item order. */
  function Collect(items: seq<DiagnosticItem>, uri: Uri): (r: seq<Diagnostic>)
    ensures forall d :: d in r ==> exists i :: 0 <= i < |items| && items[i].uri == uri && d in items[i].diagnostics
    ensures forall i :: 0 <= i < |items| && items[i].uri == uri ==> multiset(items[i].diagnostics) <= multiset(r)
  {
    if |items| == 0 then []
    else (if items[0].uri == uri then items[0].diagnostics else []) + Collect(items[1..], uri)
  }

  /** `getDiagnosticsByFilePath`. */
  function Lookup(store: Store, index: map<Uri, string>, fileUri: string -> Uri, filePath: string): (r: seq<Diagnostic>)
    ensures fileUri(filePath) !in index || index[fileUri(filePath)] == "" ==> r == []
    ensures fileUri(filePath) in index && index[fileUri(filePath)] !in store ==> r == []
    ensures fileUri(filePath) in index && index[fileUri(filePath)] != "" && index[fileUri(filePath)] in store ==>
              r == Collect(store[index[fileUri(filePath)]], fileUri(filePath))
  {
    var uri := fileUri(filePath);
    if uri !in index || index[uri] == "" then []
    else if index[uri] !in store then []
    else Collect(store[index[uri]], uri)
  }

  /** `items.find(item => item.uri === uri && item.source === source)`, as
      the position of the first such item. */
  function FindItem(items: seq<DiagnosticItem>, uri: Uri, source: string): (r: Option<nat>)
    ensures r.None? <==> forall i :: 0 <= i < |items| ==> !(items[i].uri == uri && items[i].source == source)
    ensures r.Some? ==> r.value < |items| && items[r.value].uri == uri && items[r.value].source == source
                        && forall i :: 0 <= i < r.value ==> !(items[i].uri == uri && items[i].source == source)
  {
    if |items| == 0 then None
    else if items[0].uri == uri && items[0].source == source then Some(0)
    else
      match FindItem(items[1..], uri, source)
      case None => None
      case Some(k) => Some(k + 1)
  }

  /** The project's list after one publication: the matching item's
      diagnostics are replaced, or a new item is appended. */
  function Upsert(items: seq<DiagnosticItem>, source: string, uri: Uri, diagnostics: seq<Diagnostic>): (r: seq<DiagnosticItem>)
    ensures FindItem(items, uri, source).None? ==> r == items + [DiagnosticItem(source, uri, diagnostics)]
    ensures FindItem(items, uri, source).Some? ==>
              var k := FindItem(items, uri, source).value;
              |r| == |items| && r[k] == DiagnosticItem(source, uri, diagnostics)
              && forall i :: 0 <= i < |items| && i != k ==> r[i] == items[i]
  {
    match FindItem(items, uri, source)
    case None => items + [DiagnosticItem(source, uri, diagnostics)]
    case Some(k) => items[k := items[k].(diagnostics := diagnostics)]
  }

  datatype Published = Published(store: Store, editorCalls: seq<string>)

  /** `setDiagnosticsByProjectRoot`. */
  function Publish(store: Store, projectRoot: string, source: string, uri: Uri, diagnostics: seq<Diagnostic>): (r: Published)
    ensures r.store.Keys == store.Keys + {projectRoot}
    ensures forall p :: p in store && p != projectRoot ==> r.store[p] == store[p]
    ensures r.store[projectRoot] == Upsert(if projectRoot in store then store[projectRoot] else [], source, uri, diagnostics)
    ensures r.editorCalls == [FlycheckReport]
  {
    var items := if projectRoot in store then store[projectRoot] else [];
    Published(store[projectRoot := Upsert(items, source, uri, diagnostics)], [FlycheckReport])
  }

  /** Publishing keeps every project free of duplicate `(uri, source)`
      items, and afterwards exactly one item holds the published pair with
      the new diagnostics. */
  lemma PublishKeepsUnique(store: Store, projectRoot: string, source: string, uri: Uri, diagnostics: seq<Diagnostic>)
    requires WellFormed(store)
    ensures var s := Publish(store, projectRoot, source, uri, diagnostics).store;
            && WellFormed(s)
            && exists k :: 0 <= k < |s[projectRoot]| && s[projectRoot][k] == DiagnosticItem(source, uri, diagnostics)
                           && forall i :: 0 <= i < |s[projectRoot]| && i != k ==>
                                !(s[projectRoot][i].uri == uri && s[projectRoot][i].source == source)
  {
    var items := if projectRoot in store then store[projectRoot] else [];
    var r := Upsert(items, source, uri, diagnostics);
    match FindItem(items, uri, source)
    case None =>
      assert r[|items|] == DiagnosticItem(source, uri, diagnostics);
      assert Unique(r);
    case Some(k) =>
      assert r[k] == DiagnosticItem(source, uri, diagnostics);
      forall i, j | 0 <= i < j < |r|
        ensures !(r[i].uri == r[j].uri && r[i].source == r[j].source)
      {
        if i != k && j != k {
          assert r[i] == items[i] && r[j] == items[j];
        } else if i == k {
          assert r[j] == items[j];
        } else {
          assert r[i] == items[i];
        }
      }
  }

  lemma {:induction false} CollectNone(items: seq<DiagnosticItem>, uri: Uri)
    requires forall i :: 0 <= i < |items| ==> items[i].uri != uri
    ensures Collect(items, uri) == []
    decreases |items|
  {
    if |items| > 0 {
      CollectNone(items[1..], uri);
    }
  }

  lemma {:induction false} CollectConcat(a: seq<DiagnosticItem>, b: seq<DiagnosticItem>, uri: Uri)
    ensures Collect(a + b, uri) == Collect(a, uri) + Collect(b, uri)
    decreases |a|
  {
    if |a| == 0 {
      assert a + b == b;
    } else {
      assert (a + b)[0] == a[0];
      assert (a + b)[1..] == a[1..] + b;
      CollectConcat(a[1..], b, uri);
    }
  }

  /** The diagnostics of a project's items for a document after one
      publication, when every item on that document has the publishing
      source. */
  lemma {:induction false} CollectAfterUpsert(items: seq<DiagnosticItem>, source: string, uri: Uri, diagnostics: seq<Diagnostic>)
    requires forall i :: 0 <= i < |items| && items[i].uri == uri ==> items[i].source == source
    requires Unique(items)
    ensures Collect(Upsert(items, source, uri, diagnostics), uri) == diagnostics
  {
    match FindItem(items, uri, source)
    case None =>
      CollectNone(items, uri);
      CollectConcat(items, [DiagnosticItem(source, uri, diagnostics)], uri);
      assert Collect([DiagnosticItem(source, uri, diagnostics)], uri) == diagnostics + Collect([], uri);
    case Some(k) =>
      UpsertCollectAt(items, source, uri, diagnostics, k);
  }

  lemma {:induction false} UpsertCollectAt(items: seq<DiagnosticItem>, source: string, uri: Uri, diagnostics: seq<Diagnostic>, k: nat)
    requires forall i :: 0 <= i < |items| && items[i].uri == uri ==> items[i].source == source
    requires Unique(items)
    requires FindItem(items, uri, source) == Some(k)
    ensures Collect(Upsert(items, source, uri, diagnostics), uri) == diagnostics
  {
    var r := Upsert(items, source, uri, diagnostics);
    assert r == r[..k] + [r[k]] + r[k + 1..];
    assert forall i :: 0 <= i < k ==> r[..k][i] == items[i];
    CollectNone(r[..k], uri);
    var tail := r[k + 1..];
    forall i | 0 <= i < |tail|
      ensures tail[i].uri != uri
    {
      assert tail[i] == items[k + 1 + i];
    }
    CollectNone(tail, uri);
    CollectConcat(r[..k] + [r[k]], r[k + 1..], uri);
    CollectConcat(r[..k], [r[k]], uri);
    assert Collect([r[k]], uri) == diagnostics + Collect([], uri);
  }

  /** The lookup partner of `Publish`: when no other source has reported
      on the document within its project, looking the file up afterwards
      gives exactly the diagnostics just published. */
  lemma LookupAfterPublish(store: Store, index: map<Uri, string>, fileUri: string -> Uri, filePath: string,
                           source: string, diagnostics: seq<Diagnostic>)
    requires WellFormed(store)
    requires fileUri(filePath) in index && index[fileUri(filePath)] != ""
    requires var p := index[fileUri(filePath)];
             p in store ==> forall i :: 0 <= i < |store[p]| ==>
               store[p][i].uri == fileUri(filePath) ==> store[p][i].source == source
    ensures var s := Publish(store, index[fileUri(filePath)], source, fileUri(filePath), diagnostics).store;
            Lookup(s, index, fileUri, filePath) == diagnostics
  {
    var uri := fileUri(filePath);
    var p := index[uri];
    var items := if p in store then store[p] else [];
    CollectAfterUpsert(items, source, uri, diagnostics);
  }

  /** Publications for one project never change what another project's
      files look up. */
  lemma PublishIsolated(store: Store, index: map<Uri, string>, fileUri: string -> Uri, filePath: string,
                        projectRoot: string, source: string, uri: Uri, diagnostics: seq<Diagnostic>)
    requires fileUri(filePath) in index && index[fileUri(filePath)] != projectRoot
    ensures Lookup(Publish(store, projectRoot, source, uri, diagnostics).store, index, fileUri, filePath)
            == Lookup(store, index, fileUri, filePath)
  {
  }
}

=== FILE: epc_utils.dfy ===
/** epc-utils.ts: the value conversions on the editor's RPC channel.  The
    s-expression encoder and the `quote`/`symbol` constructors of the RPC
    library are uninterpreted: an argument list is kept as the list of
    constructor applications the library is handed. */
module EpcUtils {
  import opened Wrappers
  import opened Protocol

  /** A value crossing the channel. */
  datatype Value = VStr(s: string) | VBool(b: bool) | VJson(j: Json)

  /** What the RPC library is handed for one argument. */
  datatype Sexp = Sym(name: string) | Val(v: Value) | Quote(inner: Sexp)

  const Quote1: char := '\''
  const MessagePrefix := "[LSP-ROCKS] "
  const TrueFlag := "t"

  // ---------------------------------------------------------------------
  // `String.prototype.split` on a one-character separator

  function Split(s: string, sep: char): (r: seq<string>)
    ensures |r| >= 1
    ensures forall i :: 0 <= i < |r| ==> sep !in r[i]
    decreases |s|
  {
    if |s| == 0 then [""]
    else if s[0] == sep then [""] + Split(s[1..], sep)
    else
      var t := Split(s[1..], sep);
      [[s[0]] + t[0]] + t[1..]
  }

  /** `parts.join(sep)`. */
  function Join(parts: seq<string>, sep: char): string
    decreases |parts|
  {
    if |parts| == 0 then ""
    else if |parts| == 1 then parts[0]
    else parts[0] + [sep] + Join(parts[1..], sep)
  }

  /** The text before the first `sep`, or all of `s`. */
  function TakeUntil(s: string, sep: char): (r: string)
    ensures sep !in r
    ensures r <= s
    ensures |r| < |s| ==> s[|r|] == sep
    decreases |s|
  {
    if |s| == 0 || s[0] == sep then "" else [s[0]] + TakeUntil(s[1..], sep)
  }

  /** Splitting loses nothing: joining the parts gives the string back. */
  lemma {:induction false} SplitJoin(s: string, sep: char)
    ensures Join(Split(s, sep), sep) == s
    decreases |s|
  {
    if |s| > 0 {
      var t := Split(s[1..], sep);
      SplitJoin(s[1..], sep);
      if s[0] == sep {
        assert Split(s, sep) == [""] + t;
        assert ([""] + t)[1..] == t;
      } else {
        var r := [[s[0]] + t[0]] + t[1..];
        if |t| == 1 {
          assert Join(r, sep) == [s[0]] + t[0];
        } else {
          assert r[1..] == t[1..];
          assert Join(t, sep) == t[0] + [sep] + Join(t[1..], sep);
        }
      }
    }
  }

  /** The first part is the text before the first separator. */
  lemma {:induction false} SplitFirst(s: string, sep: char)
    ensures Split(s, sep)[0] == TakeUntil(s, sep)
    decreases |s|
  {
    if |s| > 0 && s[0] != sep {
      SplitFirst(s[1..], sep);
    }
  }

  // ---------------------------------------------------------------------
  // Arguments

  /** `handle_arg_types`. */
  function HandleArg(arg: Value): (r: Sexp)
    ensures arg.VStr? && |arg.s| > 0 && arg.s[0] == Quote1 ==> r == Quote(Sym(Split(arg.s, Quote1)[1]))
    ensures !(arg.VStr? && |arg.s| > 0 && arg.s[0] == Quote1) ==> r == Quote(Val(arg))
  {
    if arg.VStr? && |arg.s| > 0 && arg.s[0] == Quote1 then
      var parts := Split(arg.s, Quote1);
      assert parts == [""] + Split(arg.s[1..], Quote1);
      Quote(Sym(parts[1]))
    else Quote(Val(arg))
  }

  /** A quoted string names the symbol written between its first quote and
      the next one (or the end of the string). */
  lemma QuotedArgIsSymbol(s: string)
    requires |s| > 0 && s[0] == Quote1
    ensures HandleArg(VStr(s)) == Quote(Sym(TakeUntil(s[1..], Quote1)))
    ensures HandleArg(VStr(s)).inner.name <= s[1..]
  {
    assert Split(s, Quote1) == [""] + Split(s[1..], Quote1);
    SplitFirst(s[1..], Quote1);
  }

  /** The symbol of a quoted argument never holds a quote, so reading it
      again as an argument quotes it as it is. */
  lemma HandleArgSymbolStable(s: string)
    requires |s| > 0 && s[0] == Quote1
    ensures var name := HandleArg(VStr(s)).inner.name;
            Quote1 !in name && HandleArg(VStr(name)) == Quote(Val(VStr(name)))
  {
    QuotedArgIsSymbol(s);
  }

  /** The argument list of `eval_in_emacs` and `get_emacs_func_result`. */
  function CallArgs(methodName: string, args: seq<Value>): (r: seq<Sexp>)
    ensures |r| == |args| + 1 && r[0] == Sym(methodName)
    ensures forall i :: 0 <= i < |args| ==> r[i + 1] == HandleArg(args[i])
  {
    [Sym(methodName)] + seq(|args|, i requires 0 <= i < |args| => HandleArg(args[i]))
  }

  /** `message_emacs`: the `message` call with the prefixed text. */
  function MessageEmacs(message: string): (r: seq<Sexp>)
    ensures r == [Sym("message"), Quote(Val(VStr(MessagePrefix + message)))]
  {
    CallArgs("message", [VStr(MessagePrefix + message)])
  }

  /** The prefixed text reaches the editor intact, however it starts. */
  lemma MessageKeepsText(message: string)
    ensures MessageEmacs(message)[1].inner.v.s[|MessagePrefix|..] == message
  {
  }

  // ---------------------------------------------------------------------
  // Results

  /** `convert_emacs_bool`. */
  function ConvertEmacsBool(symbolValue: Value, symbolIsBoolean: string): (r: Value)
    ensures symbolIsBoolean == TrueFlag ==> r == VBool(symbolValue == VStr(TrueFlag))
    ensures symbolIsBoolean != TrueFlag ==> r == symbolValue
  {
    if symbolIsBoolean == TrueFlag then VBool(symbolValue == VStr(TrueFlag)) else symbolValue
  }

  /** A boolean variable holds `true` exactly when its value is `t`. */
  lemma ConvertEmacsBoolCases(v: Value)
    ensures ConvertEmacsBool(v, TrueFlag) == VBool(true) <==> v == VStr("t")
    ensures ConvertEmacsBool(v, TrueFlag).VBool?
    ensures ConvertEmacsBool(v, "nil") == v
  {
  }

  /** `get_emacs_vars`: a missing answer gives no values. */
  function GetEmacsVars(results: Reply<seq<(Value, string)>>): (r: Result<seq<Value>, Error>)
    ensures results.Rejected? ==> r == Failure(results.error)
    ensures results == Resolved(None) ==> r == Success([])
    ensures results.Resolved? && results.value.Some? ==>
              && r.Success? && |r.value| == |results.value.value|
              && forall i :: 0 <= i < |r.value| ==>
                   r.value[i] == ConvertEmacsBool(results.value.value[i].0, results.value.value[i].1)
  {
    match results
    case Rejected(e) => Failure(e)
    case Resolved(None) => Success([])
    case Resolved(Some(rs)) =>
      Success(seq(|rs|, i requires 0 <= i < |rs| => ConvertEmacsBool(rs[i].0, rs[i].1)))
  }

  /** `get_emacs_var`: a missing answer is an error naming the variable. */
  function GetEmacsVar(varName: string, result: Reply<(Value, string)>): (r: Result<Value, Error>)
    ensures result.Rejected? ==> r == Failure(result.error)
    ensures result == Resolved(None) ==> r == Failure(NoSuchVariable(varName))
    ensures r.Success? <==> result.Resolved? && result.value.Some?
    ensures result.Resolved? && result.value.Some? ==>
              r == Success(ConvertEmacsBool(result.value.value.0, result.value.value.1))
  {
    match result
    case Rejected(e) => Failure(e)
    case Resolved(None) => Failure(NoSuchVariable(varName))
    case Resolved(Some((v, flag))) => Success(ConvertEmacsBool(v, flag))
  }

  /** A single variable and a one-element batch agree when both answer. */
  lemma GetEmacsVarMatchesVars(varName: string, v: Value, flag: string)
    ensures GetEmacsVars(Resolved(Some([(v, flag)]))) == Success([GetEmacsVar(varName, Resolved(Some((v, flag)))).value])
  {
    var all := GetEmacsVars(Resolved(Some([(v, flag)]))).value;
    assert |all| == 1 && all[0] == ConvertEmacsBool(v, flag);
    assert all == [ConvertEmacsBool(v, flag)];
    assert GetEmacsVar(varName, Resolved(Some((v, flag)))) == Success(ConvertEmacsBool(v, flag));
  }

  /** The post-processing of `get_emacs_func_result`: the string `t` is
      `true`, anything else (including no answer) passes through. */
  function FuncResult(result: Reply<Value>): (r: Result<Option<Value>, Error>)
    ensures result.Rejected? ==> r == Failure(result.error)
    ensures result.Resolved? && result.value == Some(VStr(TrueFlag)) ==> r == Success(Some(VBool(true)))
    ensures result.Resolved? && result.value != Some(VStr(TrueFlag)) ==> r == Success(result.value)
  {
    match result
    case Rejected(e) => Failure(e)
    case Resolved(v) => if v == Some(VStr(TrueFlag)) then Success(Some(VBool(true))) else Success(v)
  }

  /** The function result agrees with reading the same value as a boolean
      variable exactly when that value is `t`. */
  lemma FuncResultAgreesWithBool(v: Value)
    ensures FuncResult(Resolved(Some(v))) == Success(Some(ConvertEmacsBool(v, TrueFlag))) <==> v == VStr("t") || v == VBool(false)
  {
  }
}

=== FILE: filter_items.dfy ===
/** The fuzzy completion filter of utils/filterItems.ts: a recursive scorer
    over UTF-16 code units and the filter-and-rank pass built on it.
    Scores are exact reals; the source computes them in IEEE doubles. */
module FilterItems {
  import opened Wrappers
  import opened Protocol

  type Codes = seq<int>

  /** `getCharCodes`: the UTF-16 code units of a string. */
  function CharCodes(s: string): (r: Codes)
    ensures |r| == |s|
  {
    seq(|s|, i requires 0 <= i < |s| => s[i] as int)
  }

  /** `codes[i]` in JavaScript: `undefined` outside the array. */
  function CodeAt(codes: Codes, i: int): Option<int> {
    if 0 <= i < |codes| then Some(codes[i]) else None
  }

  /** `wordChar`: an ASCII letter. */
  function WordChar(ch: int): (b: bool)
    ensures b <==> GetCase(Some(ch)) != 0
  {
    (97 <= ch <= 122) || (65 <= ch <= 90)
  }

  /** `getCase`: 1 for a lower-case ASCII letter, 2 for an upper-case one,
      0 for anything else, `undefined` included. */
  function GetCase(code: Option<int>): (r: nat)
    ensures r == 1 <==> code.Some? && 97 <= code.value <= 122
    ensures r == 2 <==> code.Some? && 65 <= code.value <= 90
    ensures r <= 2
  {
    match code
    case None => 0
    case Some(c) =>
      if 97 <= c <= 122 then 1
      else if 65 <= c <= 90 then 2
      else 0
  }

  /** A word starts at `i` when `codes[i]` is a letter whose case differs
      from the case of the code before it (nothing before index 0). */
  predicate IsWordStart(codes: Codes, i: int) {
    0 <= i < |codes|
    && GetCase(Some(codes[i])) > 0
    && GetCase(Some(codes[i])) != GetCase(CodeAt(codes, i - 1))
  }

  /** `getNextWord`: the first word start at or after `index`, with its code. */
  function GetNextWord(codes: Codes, index: nat): (r: Option<(nat, int)>)
    ensures r.Some? ==> index <= r.value.0 < |codes| && r.value.1 == codes[r.value.0]
    ensures r.Some? ==> IsWordStart(codes, r.value.0)
    ensures r.Some? ==> forall j :: index <= j < r.value.0 ==> !IsWordStart(codes, j)
    ensures r.None? ==> forall j :: index <= j < |codes| ==> !IsWordStart(codes, j)
    decreases |codes| - index
  {
    if index >= |codes| then None
    else if IsWordStart(codes, index) then Some((index, codes[index]))
    else GetNextWord(codes, index + 1)
  }

  /** `findIndex`: the first position at or after `start` holding `val`, or -1. */
  function FindIndex(codes: Codes, val: int, start: nat): (r: int)
    ensures r == -1 <==> forall j :: start <= j < |codes| ==> codes[j] != val
    ensures r != -1 ==> start <= r < |codes| && codes[r] == val
    ensures r != -1 ==> forall j :: start <= j < r ==> codes[j] != val
    decreases |codes| - start
  {
    if start >= |codes| then -1
    else if codes[start] == val then start
    else FindIndex(codes, val, start + 1)
  }

  /** `caseScore`: full credit `1/divide` for the same code, half credit when
      the typed code is the code plus 32 (a lower-case letter typed for an
      upper-case one), nothing otherwise. */
  function CaseScore(input: int, curr: int, divide: real): (r: real)
    requires divide > 0.0
    ensures input == curr ==> r == 1.0 / divide
    ensures input != curr && curr + 32 == input ==> r == 0.5 / divide
    ensures r != 0.0 <==> input == curr || curr + 32 == input
    ensures r >= 0.0
  {
    if input == curr then 1.0 / divide
    else if curr + 32 == input then 0.5 / divide
    else 0.0
  }

  /** The first position at or after `from` where `input` earns a positive
      case score, with that score (the "find fuzzy" loop). */
  function FirstFuzzy(codes: Codes, input: int, from: nat, divide: real): (r: Option<(nat, real)>)
    requires divide > 0.0
    ensures r.Some? ==> from <= r.value.0 < |codes|
    ensures r.Some? ==> r.value.1 == CaseScore(input, codes[r.value.0], divide) && r.value.1 > 0.0
    ensures r.Some? ==> forall j :: from <= j < r.value.0 ==> CaseScore(input, codes[j], divide) == 0.0
    ensures r.None? ==> forall j :: from <= j < |codes| ==> CaseScore(input, codes[j], divide) == 0.0
    decreases |codes| - from
  {
    if from >= |codes| then None
    else
      var s := CaseScore(input, codes[from], divide);
      if s > 0.0 then Some((from, s)) else FirstFuzzy(codes, input, from + 1, divide)
  }

  /** A successful match: its score and the matched positions. */
  datatype Match = Match(score: real, positions: seq<int>)

  /** `[score + next[0], next[1]]`, or `undefined` when the rest failed. */
  function Then(score: real, next: Option<Match>): (r: Option<Match>)
    ensures r.Some? <==> next.Some?
    ensures r.Some? ==> r.value == Match(score + next.value.score, next.value.positions)
  {
    match next
    case None => None
    case Some(m) => Some(Match(score + m.score, m.positions))
  }

  /** The entry a `Map` keyed by score yields for its largest key once the
      next-word candidate and then the fuzzy candidate were set: the fuzzy
      one overwrites on an equal key. */
  function Best(word: Option<Match>, fuzzy: Option<Match>): (r: Option<Match>)
    ensures r.None? <==> word.None? && fuzzy.None?
    ensures r.Some? ==> r == word || r == fuzzy
    ensures r.Some? && word.Some? ==> r.value.score >= word.value.score
    ensures r.Some? && fuzzy.Some? ==> r.value.score >= fuzzy.value.score
  {
    match (word, fuzzy)
    case (None, _) => fuzzy
    case (_, None) => word
    case (Some(w), Some(f)) => if f.score >= w.score then fuzzy else word
  }

  predicate InBounds(positions: seq<int>, n: int) {
    forall k :: 0 <= k < |positions| ==> 0 <= positions[k] < n
  }

  /** `nextScore`: match the typed codes `input` against `codes` from
      `index` on, extending the matched `positions`. */
  function NextScore(codes: Codes, index: nat, input: Codes, positions: seq<int>): (r: Option<Match>)
    ensures |input| == 0 ==> r == Some(Match(0.0, positions))
    ensures |input| > 0 && index >= |codes| ==> r.None?
    ensures r.Some? ==> |r.value.positions| == |positions| + |input|
    ensures r.Some? ==> r.value.score >= 0.0
    ensures r.Some? && |input| > 0 ==> r.value.score > 0.0
    ensures r.Some? && InBounds(positions, |codes|) ==> InBounds(r.value.positions, |codes|)
    decreases |input|, 1
  {
    if |input| == 0 then Some(Match(0.0, positions))
    else if index >= |codes| then None
    else
      var c := input[0];
      var rest := input[1..];
      if !WordChar(c) then
        // not a letter: jump to its next literal occurrence
        var idx := FindIndex(codes, c, index);
        if idx == -1 then None
        else Then(if idx == 0 then 5.0 else 1.0, NextScore(codes, idx + 1, rest, positions + [idx]))
      else
        var isStart := |positions| == 0;
        var here := CaseScore(c, codes[index], if isStart then 0.2 else 1.0);
        if here > 0.0 then
          Then(here, NextScore(codes, index + 1, rest, positions + [index]))
        else
          var viaWord := ViaWord(codes, index, c, rest, positions);
          var viaFuzzy := ViaFuzzy(codes, index, c, rest, positions);
          if viaWord.Some? || viaFuzzy.Some? then Best(viaWord, viaFuzzy)
          else StepBack(codes, c, rest, positions)
  }

  /** The next-word candidate of `nextScore`: the typed letter against the
      start of the next word. */
  function ViaWord(codes: Codes, index: nat, c: int, rest: Codes, positions: seq<int>): (r: Option<Match>)
    ensures r.Some? ==> |r.value.positions| == |positions| + 1 + |rest| && r.value.score > 0.0
    ensures r.Some? && InBounds(positions, |codes|) ==> InBounds(r.value.positions, |codes|)
    decreases |rest| + 1, 0
  {
    match GetNextWord(codes, index + 1)
    case None => None
    case Some((w, wc)) =>
      var s := CaseScore(c, wc, if |positions| == 0 then 0.5 else 1.0);
      if s > 0.0 then
        Then(if s == 0.5 then 0.75 else s, NextScore(codes, w + 1, rest, positions + [w]))
      else None
  }

  /** The fuzzy candidate of `nextScore`: the first later code the typed
      letter matches at all. */
  function ViaFuzzy(codes: Codes, index: nat, c: int, rest: Codes, positions: seq<int>): (r: Option<Match>)
    ensures r.Some? ==> |r.value.positions| == |positions| + 1 + |rest| && r.value.score > 0.0
    ensures r.Some? && InBounds(positions, |codes|) ==> InBounds(r.value.positions, |codes|)
    decreases |rest| + 1, 0
  {
    match FirstFuzzy(codes, c, index + 1, if |positions| == 0 then 1.0 else 10.0)
    case None => None
    case Some((i, s)) => Then(s, NextScore(codes, i + 1, rest, positions + [i]))
  }

  /** The last resort of `nextScore`: the code just before the last matched
      position, which is then matched again. */
  function StepBack(codes: Codes, c: int, rest: Codes, positions: seq<int>): (r: Option<Match>)
    ensures r.Some? ==> |r.value.positions| == |positions| + 1 + |rest| && r.value.score > 0.0
    ensures r.Some? && InBounds(positions, |codes|) ==> InBounds(r.value.positions, |codes|)
    decreases |rest| + 1, 0
  {
    if |positions| > 0 then
      var last := positions[|positions| - 1];
      if last > 0 && CodeAt(codes, last) != Some(c) && CodeAt(codes, last - 1) == Some(c) then
        var ps := positions[..|positions| - 1] + [last - 1] + [last];
        Then(0.5, NextScore(codes, last + 1, rest, ps))
      else None
    else None
  }

  /** `matchScoreWithPositions`. */
  function MatchScore(word: string, input: Codes): (r: Option<Match>)
    ensures |input| == 0 || |word| < |input| ==> r.None?
    ensures r.Some? ==> r.value.score > 0.0 && |r.value.positions| == |input|
    ensures r.Some? ==> InBounds(r.value.positions, |word|)
  {
    if |input| == 0 || |word| < |input| then None
    else NextScore(CharCodes(word), 0, input, [])
  }

  /** A typed prefix that literally starts the remaining codes always matches. */
  lemma {:induction false} LiteralPrefixMatches(codes: Codes, index: nat, input: Codes, positions: seq<int>)
    requires index + |input| <= |codes|
    requires codes[index..index + |input|] == input
    ensures NextScore(codes, index, input, positions).Some?
    decreases |input|
  {
    if |input| > 0 {
      var c := input[0];
      assert codes[index] == c;
      var rest := input[1..];
      assert codes[index + 1..index + 1 + |rest|] == rest;
      if !WordChar(c) {
        assert FindIndex(codes, c, index) == index;
        LiteralPrefixMatches(codes, index + 1, rest, positions + [index]);
      } else {
        var isStart := |positions| == 0;
        assert CaseScore(c, codes[index], if isStart then 0.2 else 1.0) > 0.0;
        LiteralPrefixMatches(codes, index + 1, rest, positions + [index]);
      }
    }
  }

  // -----------------------------------------------------------------------
  // Filter and rank

  /** `filterText ?? label`. */
  function FilterText(item: CompletionItem): (r: string)
    ensures item.filterText.None? ==> r == item.labelText
    ensures item.filterText.Some? ==> r == item.filterText.value
    ensures item.filterText == Some("") ==> r == ""
  {
    item.filterText.GetOr(item.labelText)
  }

  /** `item.kind` is truthy: present and not 0. */
  predicate HasKind(item: CompletionItem) {
    item.kind.Some? && item.kind.value != 0
  }

  predicate IsPrefix(p: string, s: string) {
    |p| <= |s| && s[..|p|] == p
  }

  /** The score `filterItems` gives `item`, or `None` when it drops it. */
  function ItemScore(prefix: string, item: CompletionItem): (r: Option<real>)
    ensures |FilterText(item)| < |prefix| ==> r.None?
    ensures |prefix| == 0 ==> r == Some(0.0)
    ensures |prefix| > 0 && HasKind(item) && FilterText(item) == prefix ==> r == Some(64.0)
    ensures |prefix| > 0 && !(HasKind(item) && FilterText(item) == prefix) ==>
              r == (match MatchScore(FilterText(item), CharCodes(prefix))
                    case None => None
                    case Some(m) => Some(m.score))
    ensures r.Some? && |prefix| > 0 ==> r.value > 0.0
  {
    var ft := FilterText(item);
    if |ft| < |prefix| then None
    else if |prefix| == 0 then Some(0.0)
    else
      var score :=
        if HasKind(item) && ft == prefix then 64.0
        else match MatchScore(ft, CharCodes(prefix))
             case None => 0.0
             case Some(m) => m.score;
      if score == 0.0 then None else Some(score)
  }

  /** An item whose filter text starts with the typed prefix is never
      dropped. */
  lemma PrefixAlwaysKept(prefix: string, item: CompletionItem)
    requires |prefix| > 0 && IsPrefix(prefix, FilterText(item))
    ensures ItemScore(prefix, item).Some? && ItemScore(prefix, item).value > 0.0
  {
    var ft := FilterText(item);
    assert CharCodes(ft)[0..|prefix|] == CharCodes(prefix);
    LiteralPrefixMatches(CharCodes(ft), 0, CharCodes(prefix), []);
  }

  /** An item kept by the filter, with its score. */
  datatype Ranked = Ranked(item: CompletionItem, score: real)

  /** A `sortText` that is truthy: present and non-empty. */
  predicate HasSortText(item: CompletionItem) {
    item.sortText.Some? && item.sortText.value != ""
  }

  /** JavaScript's `<` on strings: lexicographic on code units. */
  predicate StrLess(a: string, b: string)
    decreases |a|
  {
    if |a| == 0 then |b| > 0
    else if |b| == 0 then false
    else if a[0] == b[0] then StrLess(a[1..], b[1..])
    else a[0] < b[0]
  }

  /** For two different strings exactly one is less than the other. */
  lemma {:induction false} StrLessTrichotomy(a: string, b: string)
    requires a != b
    ensures StrLess(a, b) != StrLess(b, a)
    decreases |a|
  {
    if |a| > 0 && |b| > 0 && a[0] == b[0] {
      assert a == [a[0]] + a[1..] && b == [b[0]] + b[1..];
      StrLessTrichotomy(a[1..], b[1..]);
    }
  }

  /** The comparator handed to `Array.prototype.sort`: negative when `a`
      goes first. */
  function Compare(a: Ranked, b: Ranked): (r: real)
    ensures a.score != b.score ==> (r < 0.0 <==> a.score > b.score)
    ensures a.score == b.score && SortTextsDiffer(a.item, b.item) ==> r == -1.0 || r == 1.0
    ensures a.score == b.score && !SortTextsDiffer(a.item, b.item) ==> r == 0.0
  {
    if a.score != b.score then b.score - a.score
    else if HasSortText(a.item) && HasSortText(b.item) && a.item.sortText.value != b.item.sortText.value then
      (if StrLess(a.item.sortText.value, b.item.sortText.value) then -1.0 else 1.0)
    else 0.0
  }

  /** Both items carry a sort text and the two differ. */
  predicate SortTextsDiffer(a: CompletionItem, b: CompletionItem) {
    HasSortText(a) && HasSortText(b) && a.sortText.value != b.sortText.value
  }

  /** The comparator is antisymmetric, ranks higher scores first, and on
      equal scores orders two different sort texts and ties otherwise. */
  lemma CompareProperties(a: Ranked, b: Ranked)
    ensures Compare(a, b) == -Compare(b, a)
    ensures a.score > b.score ==> Compare(a, b) < 0.0
    ensures a.score == b.score && SortTextsDiffer(a.item, b.item) ==>
              (Compare(a, b) < 0.0 <==> StrLess(a.item.sortText.value, b.item.sortText.value))
    ensures a.score == b.score && !SortTextsDiffer(a.item, b.item) ==> Compare(a, b) == 0.0
  {
    if a.score == b.score && HasSortText(a.item) && HasSortText(b.item)
       && a.item.sortText.value != b.item.sortText.value {
      StrLessTrichotomy(a.item.sortText.value, b.item.sortText.value);
    }
  }

  /** `a` must precede `b` according to the comparator. */
  predicate Before(a: Ranked, b: Ranked) {
    Compare(a, b) < 0.0
  }

  /** An item with its score under `prefix` (0 for a dropped item): the
      source's `ExtendCompletionItem`. */
  function Rank(prefix: string, x: CompletionItem): Ranked {
    Ranked(x, ItemScore(prefix, x).GetOr(0.0))
  }

  /** No two neighbours are out of the comparator's order. */
  predicate LocallyOrdered(prefix: string, s: seq<CompletionItem>) {
    forall i :: 0 <= i < |s| - 1 ==> !Before(Rank(prefix, s[i + 1]), Rank(prefix, s[i]))
  }

  /** Stable insertion: `x` goes before the first element it must precede. */
  function Insert(prefix: string, x: CompletionItem, s: seq<CompletionItem>): (r: seq<CompletionItem>)
    ensures |r| == |s| + 1
    ensures r[0] == x || (|s| > 0 && r[0] == s[0])
    ensures multiset(r) == multiset(s) + multiset{x}
  {
    if |s| == 0 then [x]
    else if Before(Rank(prefix, x), Rank(prefix, s[0])) then [x] + s
    else
      assert s == [s[0]] + s[1..];
      [s[0]] + Insert(prefix, x, s[1..])
  }

  lemma {:induction false} InsertKeepsOrder(prefix: string, x: CompletionItem, s: seq<CompletionItem>)
    requires LocallyOrdered(prefix, s)
    ensures LocallyOrdered(prefix, Insert(prefix, x, s))
  {
    if |s| > 0 {
      if Before(Rank(prefix, x), Rank(prefix, s[0])) {
        CompareProperties(Rank(prefix, x), Rank(prefix, s[0]));
      } else {
        InsertKeepsOrder(prefix, x, s[1..]);
        var t := Insert(prefix, x, s[1..]);
        assert Insert(prefix, x, s) == [s[0]] + t;
        if |s| > 1 {
          assert t[0] == x || t[0] == s[1];
        }
      }
    }
  }

  /** The ranking: every kept item inserted in input order. */
  function Sort(prefix: string, s: seq<CompletionItem>): (r: seq<CompletionItem>)
    ensures multiset(r) == multiset(s)
  {
    if |s| == 0 then []
    else
      assert s == s[..|s| - 1] + [s[|s| - 1]];
      Insert(prefix, s[|s| - 1], Sort(prefix, s[..|s| - 1]))
  }

  lemma {:induction false} SortIsOrdered(prefix: string, s: seq<CompletionItem>)
    ensures LocallyOrdered(prefix, Sort(prefix, s))
  {
    if |s| > 0 {
      SortIsOrdered(prefix, s[..|s| - 1]);
      InsertKeepsOrder(prefix, s[|s| - 1], Sort(prefix, s[..|s| - 1]));
    }
  }

  /** Locally ordered means the scores never increase along the whole list. */
  lemma {:induction false} OrderedScoresDescend(prefix: string, s: seq<CompletionItem>)
    requires LocallyOrdered(prefix, s)
    ensures forall i, j :: 0 <= i < j < |s| ==> Rank(prefix, s[i]).score >= Rank(prefix, s[j]).score
    decreases |s|
  {
    if |s| > 1 {
      OrderedScoresDescend(prefix, s[1..]);
      assert !Before(Rank(prefix, s[1]), Rank(prefix, s[0]));
      forall i, j | 0 <= i < j < |s|
        ensures Rank(prefix, s[i]).score >= Rank(prefix, s[j]).score
      {
        if i > 0 {
          assert s[i] == s[1..][i - 1] && s[j] == s[1..][j - 1];
        } else if j > 1 {
          assert s[j] == s[1..][j - 1] && s[1] == s[1..][0];
        }
      }
    }
  }

  /** The kept items in input order. */
  function Kept(prefix: string, items: seq<CompletionItem>): (r: seq<CompletionItem>)
    ensures forall x :: x in r ==> ItemScore(prefix, x).Some?
    ensures |r| <= |items|
    ensures |prefix| == 0 ==> r == items
  {
    if |items| == 0 then []
    else
      var rest := Kept(prefix, items[1..]);
      if ItemScore(prefix, items[0]).Some? then [items[0]] + rest else rest
  }

  /** One step of `Kept`: the first item is kept exactly when it scores. */
  lemma KeptStep(prefix: string, items: seq<CompletionItem>)
    requires |items| > 0
    ensures multiset(items) == multiset{items[0]} + multiset(items[1..])
    ensures multiset(Kept(prefix, items)) ==
              (if ItemScore(prefix, items[0]).Some? then multiset{items[0]} else multiset{})
              + multiset(Kept(prefix, items[1..]))
  {
    assert items == [items[0]] + items[1..];
  }

  /** The filter keeps every scored item exactly as often as the input holds
      it, and nothing else. */
  lemma {:induction false} KeptMultiplicity(prefix: string, items: seq<CompletionItem>)
    ensures forall y :: multiset(Kept(prefix, items))[y] == if ItemScore(prefix, y).Some? then multiset(items)[y] else 0
    decreases |items|
  {
    if |items| > 0 {
      KeptMultiplicity(prefix, items[1..]);
      KeptStep(prefix, items);
    }
  }

  /** Hence the kept items are drawn from the input and miss no scored one. */
  lemma KeptFromInput(prefix: string, items: seq<CompletionItem>)
    ensures multiset(Kept(prefix, items)) <= multiset(items)
    ensures forall x :: x in items && ItemScore(prefix, x).Some? ==> x in Kept(prefix, items)
  {
    KeptMultiplicity(prefix, items);
    var r := Kept(prefix, items);
    forall x | x in items && ItemScore(prefix, x).Some?
      ensures x in r
    {
      assert multiset(r)[x] == multiset(items)[x] > 0;
    }
  }

  /** `filterItems`: the items the prefix keeps, ranked by the comparator. */
  function Filter(prefix: string, items: seq<CompletionItem>): (r: seq<CompletionItem>)
    ensures multiset(r) <= multiset(items) && |r| <= |items|
    ensures forall x :: x in r ==> ItemScore(prefix, x).Some?
    ensures forall x :: x in items && ItemScore(prefix, x).Some? ==> x in r
    ensures forall y :: multiset(r)[y] == if ItemScore(prefix, y).Some? then multiset(items)[y] else 0
    ensures |prefix| == 0 ==> multiset(r) == multiset(items)
  {
    KeptMultiplicity(prefix, items);
    KeptFromInput(prefix, items);
    var r := Sort(prefix, Kept(prefix, items));
    assert forall x :: x in r <==> x in multiset(r);
    assert multiset(items) == multiset(r) + (multiset(items) - multiset(r));
    assert |r| == |multiset(r)| <= |multiset(items)| == |items|;
    r
  }

  /** The result is ranked: scores never increase, and no neighbour pair is
      out of the comparator's order. */
  lemma FilterRanks(prefix: string, items: seq<CompletionItem>)
    ensures forall i, j :: 0 <= i < j < |Filter(prefix, items)| ==>
              Rank(prefix, Filter(prefix, items)[i]).score >= Rank(prefix, Filter(prefix, items)[j]).score
    ensures LocallyOrdered(prefix, Filter(prefix, items))
  {
    SortIsOrdered(prefix, Kept(prefix, items));
    OrderedScoresDescend(prefix, Filter(prefix, items));
  }
}

=== FILE: locations.dfy ===
/** features/definition.ts and features/reference.ts: turning the
    locations a server answers into `{uri: path, range}` records for the
    editor.  The URI-to-path conversions (`URI.parse(u).path` of vscode-uri,
    `fileURLToPath` of node:url) are foreign code and enter as parameters. */
module Locations {
  import opened Wrappers
  import opened Protocol

  const DefinitionMethod := "textDocument/definition"

  /** An element of a definition answer: a `Location` (it has `uri` and
      `range`) or a `LocationLink`. */
  datatype DefinitionTarget =
    | Location(uri: Uri, range: Range)
    | LocationLink(targetUri: Uri, targetRange: Range, targetSelectionRange: Range)

  /** A non-null definition answer: one `Location`, or an array. */
  datatype DefinitionAnswer =
    | Single(uri: Uri, range: Range)
    | Many(targets: seq<DefinitionTarget>)

  /** What the editor receives. */
  datatype FileLocation = FileLocation(path: string, range: Range)

  /** `isLocation` decides which pair of fields is read. */
  function ToFileLocation(t: DefinitionTarget, path: Uri -> string): (r: FileLocation)
    ensures t.Location? ==> r == FileLocation(path(t.uri), t.range)
    ensures t.LocationLink? ==> r == FileLocation(path(t.targetUri), t.targetRange)
  {
    match t
    case Location(uri, range) => FileLocation(path(uri), range)
    case LocationLink(targetUri, targetRange, _) => FileLocation(path(targetUri), targetRange)
  }

  datatype Outcome = Outcome(requested: bool, result: Result<seq<FileLocation>, Error>)

  /** `DefinitionFeature.runWith`; `capable` is the set of methods the
      client's capability check admits. */
  function RunDefinition(capable: set<string>, resp: Reply<DefinitionAnswer>, path: Uri -> string): (r: Outcome)
    ensures DefinitionMethod !in capable ==> r == Outcome(false, Success([]))
    ensures DefinitionMethod in capable ==> r.requested
    ensures DefinitionMethod in capable && resp.Rejected? ==> r.result == Failure(resp.error)
    ensures DefinitionMethod in capable && resp == Resolved(None) ==> r.result == Success([])
    ensures DefinitionMethod in capable && resp.Resolved? && resp.value.Some? && resp.value.value.Single? ==>
              r.result == Success([FileLocation(path(resp.value.value.uri), resp.value.value.range)])
    ensures DefinitionMethod in capable && resp.Resolved? && resp.value.Some? && resp.value.value.Many? ==>
              && r.result.Success?
              && |r.result.value| == |resp.value.value.targets|
              && forall i :: 0 <= i < |r.result.value| ==>
                   r.result.value[i] == ToFileLocation(resp.value.value.targets[i], path)
  {
    if DefinitionMethod !in capable then Outcome(false, Success([]))
    else
      match resp
      case Rejected(e) => Outcome(true, Failure(e))
      case Resolved(None) => Outcome(true, Success([]))
      case Resolved(Some(Single(uri, range))) => Outcome(true, Success([FileLocation(path(uri), range)]))
      case Resolved(Some(Many(targets))) =>
        Outcome(true, Success(seq(|targets|, i requires 0 <= i < |targets| => ToFileLocation(targets[i], path))))
  }

  /** `ReferencesFeature.runWith`: the request is always sent. */
  function RunReferences(resp: Reply<seq<(Uri, Range)>>, toPath: Uri -> string): (r: Result<seq<FileLocation>, Error>)
    ensures resp.Rejected? ==> r == Failure(resp.error)
    ensures resp == Resolved(None) ==> r == Success([])
    ensures resp.Resolved? && resp.value.Some? ==>
              && r.Success?
              && |r.value| == |resp.value.value|
              && forall i :: 0 <= i < |r.value| ==>
                   r.value[i] == FileLocation(toPath(resp.value.value[i].0), resp.value.value[i].1)
  {
    match resp
    case Rejected(e) => Failure(e)
    case Resolved(None) => Success([])
    case Resolved(Some(locs)) =>
      Success(seq(|locs|, i requires 0 <= i < |locs| => FileLocation(toPath(locs[i].0), locs[i].1)))
  }

  /** A definition answer of `Location`s gives the same records as the
      references conversion of the same list when both conversions agree. */
  lemma DefinitionMatchesReferences(locs: seq<(Uri, Range)>, path: Uri -> string)
    ensures var targets := seq(|locs|, i requires 0 <= i < |locs| => Location(locs[i].0, locs[i].1));
            RunDefinition({DefinitionMethod}, Resolved(Some(Many(targets))), path).result
            == RunReferences(Resolved(Some(locs)), path)
  {
    var targets := seq(|locs|, i requires 0 <= i < |locs| => Location(locs[i].0, locs[i].1));
    var d := RunDefinition({DefinitionMethod}, Resolved(Some(Many(targets))), path).result.value;
    var e := RunReferences(Resolved(Some(locs)), path).value;
    assert |d| == |e|;
    forall i | 0 <= i < |d|
      ensures d[i] == e[i]
    {
      assert targets[i] == Location(locs[i].0, locs[i].1);
    }
    assert d == e;
  }
}

=== FILE: method_requirements.dfy ===
/** constants/methodRequirements.ts: which server capability each request
    method depends on.  An entry names a `ServerCapabilities` field, or
    carries a check command evaluated against the capabilities. */
module MethodRequirements {
  import opened Wrappers
  import opened Protocol

  /** The check commands of the table: all but one are empty functions. */
  datatype Check =
    | EmptyCheck             // `() => { }`: always `undefined`
    | ResolveProviderCheck   // `completionProvider?.resolveProvider`

  /** An entry has exactly one of `capability` and `checkCommand`. */
  datatype Requirement =
    | Capability(field: string)
    | CheckCommand(check: Check)

  /** `methodRequirements[method]`. */
  function RequirementOf(meth: string): (r: Option<Requirement>)
    ensures r.Some? && r.value.CheckCommand? && r.value.check.ResolveProviderCheck? ==> meth == "completionItem/resolve"
  {
    match meth
    case "textDocument/callHierarchy" => Some(Capability("callHierarchyProvider"))
    case "textDocument/codeAction" => Some(Capability("codeActionProvider"))
    case "codeAction/resolve" => Some(CheckCommand(EmptyCheck))
    case "textDocument/codeLens" => Some(Capability("codeLensProvider"))
    case "textDocument/completion" => Some(Capability("completionProvider"))
    case "completionItem/resolve" => Some(CheckCommand(ResolveProviderCheck))
    case "textDocument/declaration" => Some(Capability("declarationProvider"))
    case "textDocument/definition" => Some(Capability("definitionProvider"))
    case "textDocument/documentColor" => Some(Capability("colorProvider"))
    case "textDocument/documentLink" => Some(Capability("documentLinkProvider"))
    case "textDocument/documentHighlight" => Some(Capability("documentHighlightProvider"))
    case "textDocument/documentSymbol" => Some(Capability("documentSymbolProvider"))
    case "textDocument/foldingRange" => Some(Capability("foldingRangeProvider"))
    case "textDocument/formatting" => Some(Capability("documentFormattingProvider"))
    case "textDocument/hover" => Some(Capability("hoverProvider"))
    case "textDocument/implementation" => Some(Capability("implementationProvider"))
    case "textDocument/linkedEditingRange" => Some(Capability("linkedEditingRangeProvider"))
    case "textDocument/onTypeFormatting" => Some(Capability("documentOnTypeFormattingProvider"))
    case "textDocument/prepareRename" => Some(CheckCommand(EmptyCheck))
    case "textDocument/rangeFormatting" => Some(Capability("documentRangeFormattingProvider"))
    case "textDocument/references" => Some(Capability("referencesProvider"))
    case "textDocument/rename" => Some(Capability("renameProvider"))
    case "textDocument/selectionRange" => Some(Capability("selectionRangeProvider"))
    case "textDocument/semanticTokens" => Some(Capability("semanticTokensProvider"))
    case "textDocument/semanticTokensFull" => Some(CheckCommand(EmptyCheck))
    case "textDocument/semanticTokensFull/Delta" => Some(CheckCommand(EmptyCheck))
    case "textDocument/semanticTokensRangeProvider" => Some(CheckCommand(EmptyCheck))
    case "textDocument/signatureHelp" => Some(Capability("signatureHelpProvider"))
    case "textDocument/typeDefinition" => Some(Capability("typeDefinitionProvider"))
    case "textDocument/typeHierarchy" => Some(Capability("typeHierarchyProvider"))
    case "workspace/executeCommand" => Some(Capability("executeCommandProvider"))
    case "workspace/symbol" => Some(Capability("workspaceSymbolProvider"))
    case _ => None
  }

  /** The value a check command returns; `None` is `undefined`. */
  function RunCheck(check: Check, caps: ServerCapabilities): (r: Option<bool>)
    ensures check.EmptyCheck? ==> r.None?
    ensures check.ResolveProviderCheck? && caps.completionProvider.None? ==> r.None?
    ensures check.ResolveProviderCheck? && caps.completionProvider.Some? ==>
              r == caps.completionProvider.value.resolveProvider
  {
    match check
    case EmptyCheck => None
    case ResolveProviderCheck =>
      match caps.completionProvider
      case None => None
      case Some(cp) => cp.resolveProvider
  }

  /** The requirements the completion, definition and formatting features
      rely on. */
  lemma FeatureRequirements()
    ensures RequirementOf("textDocument/completion") == Some(Capability("completionProvider"))
    ensures RequirementOf("textDocument/definition") == Some(Capability("definitionProvider"))
    ensures RequirementOf("textDocument/formatting") == Some(Capability("documentFormattingProvider"))
  {
  }

  /** Resolving a completion item is gated by `resolveProvider`. */
  lemma ResolveRequirement(caps: ServerCapabilities)
    ensures RequirementOf("completionItem/resolve") == Some(CheckCommand(ResolveProviderCheck))
    ensures RunCheck(ResolveProviderCheck, caps)
            == (if caps.completionProvider.Some? then caps.completionProvider.value.resolveProvider else None)
  {
  }

  /** The placeholder checks. */
  lemma EmptyChecks()
    ensures RequirementOf("codeAction/resolve") == Some(CheckCommand(EmptyCheck))
    ensures RequirementOf("textDocument/prepareRename") == Some(CheckCommand(EmptyCheck))
    ensures RequirementOf("textDocument/semanticTokensFull") == Some(CheckCommand(EmptyCheck))
    ensures RequirementOf("textDocument/semanticTokensFull/Delta") == Some(CheckCommand(EmptyCheck))
    ensures RequirementOf("textDocument/semanticTokensRangeProvider") == Some(CheckCommand(EmptyCheck))
  {
  }

  /** Notifications have no entry. */
  lemma AbsentMethods()
    ensures RequirementOf("textDocument/didOpen").None?
  {
  }
}

=== FILE: orchestrator.dfy ===
/** lsp-rocks.ts: the `LspRocks` message hook.  Every message from the
    editor first records its id as the latest for its command; handling it
    then runs in two phases separated by the awaited feature call:
    admission (client creation, the `init` shortcut, the first staleness
    check) and delivery (the second staleness check and the emitted
    answer).  Other messages may arrive between the phases, so the model
    keeps the phases as separate functions over the same state. */
module Orchestrator {
  import opened Wrappers
  import opened Protocol
  import Client
  import EpcUtils

  const InitCommand := "init"
  const GetVarCommand := "get-var"
  const CallFuncCommand := "call-func"
  const DidChangeCommand := "textDocument/didChange"
  /** The one client key in use. */
  const TestClientId := "test"
  const MissingParamsNotice := "Can not create LanguageClient, because language and project is undefined"

  /** The part of `InitParams` the client is built from; `body` is the
      whole params object handed on to the feature. */
  datatype Params = Params(language: string, project: string, body: Json)

  datatype Message = Message(id: string, cmd: string, params: Option<Params>)

  /** `_clients` and `_recentRequests`. */
  datatype Rocks = Rocks(clients: map<string, Client.Client>, recent: map<string, string>)

  /** `Message.isResponse`. */
  function IsResponse(msg: Message): (b: bool)
    ensures b <==> msg.cmd == GetVarCommand || msg.cmd == CallFuncCommand
    ensures b ==> msg.cmd != InitCommand && msg.cmd != DidChangeCommand
  {
    msg.cmd in [GetVarCommand, CallFuncCommand]
  }

  /** The hook's first step, before any `await`. */
  function Arrive(s: Rocks, msg: Message): (r: Rocks)
    ensures r.clients == s.clients
    ensures msg.cmd in r.recent && r.recent[msg.cmd] == msg.id
    ensures forall c :: c != msg.cmd ==> (c in r.recent <==> c in s.recent)
    ensures forall c :: c != msg.cmd && c in s.recent ==> r.recent[c] == s.recent[c]
  {
    s.(recent := s.recent[msg.cmd := msg.id])
  }

  /** `ensureClient('test', params)`: `features` are the methods of the
      client's dynamic features, `outcome` how its start settles and
      `describe` the text `initialize` makes of a thrown error (its message
      and stack, or its JSON) when it tells the editor. */
  datatype Ensured = Ensured(rocks: Rocks, client: Result<Client.Client, Error>, notices: seq<seq<EpcUtils.Sexp>>)

  function EnsureClient(s: Rocks, params: Option<Params>, features: set<string>, outcome: Client.StartOutcome,
                        describe: Error -> string)
    : (r: Ensured)
    ensures TestClientId in s.clients ==> r == Ensured(s, Success(s.clients[TestClientId]), [])
    ensures TestClientId !in s.clients && params.None? ==>
              r == Ensured(s, Failure(MissingInitParams), [EpcUtils.MessageEmacs(MissingParamsNotice)])
    ensures TestClientId !in s.clients && params.Some? ==>
              var created := Client.NewClient(params.value.project, params.value.language, features);
              && r.rocks == s.(clients := s.clients[TestClientId := Client.Start(created, outcome).client])
              && (r.client.Success? <==> Client.Start(created, outcome).outcome.Success?)
              && (r.client.Success? ==> r.client.value == r.rocks.clients[TestClientId] && r.notices == [])
              && (r.client.Failure? ==> r.client.error == Client.Start(created, outcome).outcome.error)
              && (r.client.Failure? && !outcome.LaunchFails? ==>
                    r.notices == [EpcUtils.MessageEmacs(describe(r.client.error))])
              && (outcome.LaunchFails? ==> r.notices == [])
    ensures TestClientId !in s.clients && params.Some? ==>
              && r.rocks.clients[TestClientId].dynamicFeatures == features
              && r.rocks.clients[TestClientId].registered == map[]
  {
    if TestClientId in s.clients then Ensured(s, Success(s.clients[TestClientId]), [])
    else
      match params
      case None => Ensured(s, Failure(MissingInitParams), [EpcUtils.MessageEmacs(MissingParamsNotice)])
      case Some(p) =>
        var created := Client.NewClient(p.project, p.language, features);
        var started := Client.Start(created, outcome);
        // the client is cached before its start is awaited, so a failed
        // start leaves it in place
        var cached := s.(clients := s.clients[TestClientId := started.client]);
        var notices := match Client.ReportedFailure(outcome)
                       case None => []
                       case Some(e) => [EpcUtils.MessageEmacs(describe(e))];
        Client.ReportedFailureIsStartFailure(created, outcome);
        match started.outcome
        case Failure(e) => Ensured(cached, Failure(e), notices)
        case Success(_) => Ensured(cached, Success(started.client), [])
  }

  /** Once a client is cached, every later message reuses it, with or
      without params, and never starts another. */
  lemma EnsureClientReuses(s: Rocks, p: Option<Params>, features: set<string>, outcome: Client.StartOutcome,
                           q: Option<Params>, features2: set<string>, outcome2: Client.StartOutcome,
                           describe: Error -> string, describe2: Error -> string)
    requires p.Some?
    ensures var first := EnsureClient(s, p, features, outcome, describe);
            var second := EnsureClient(first.rocks, q, features2, outcome2, describe2);
            && second.rocks == first.rocks
            && second.client == Success(first.rocks.clients[TestClientId])
  {
  }

  /** What admission decides. */
  datatype Admission =
    | Ignored                      // a response from the editor
    | Failed(error: Error)         // the handler rejects
    | Initialized                  // `init`: the client exists, nothing else to do
    | Superseded                   // a newer message of the same command has arrived
    | Dispatch(feature: string)    // the feature call is made

  datatype Admitted = Admitted(rocks: Rocks, decision: Admission, notices: seq<seq<EpcUtils.Sexp>>)

  /** `messageHandler` up to the feature call. */
  function Admit(s: Rocks, msg: Message, features: set<string>, outcome: Client.StartOutcome,
                 describe: Error -> string): (r: Admitted)
    ensures IsResponse(msg) ==> r == Admitted(s, Ignored, [])
    ensures !IsResponse(msg) ==>
              var e := EnsureClient(s, msg.params, features, outcome, describe);
              && r.rocks == e.rocks && r.notices == e.notices
              && (e.client.Failure? ==> r.decision == Failed(e.client.error))
              && (e.client.Success? && msg.cmd == InitCommand ==> r.decision == Initialized)
    ensures !IsResponse(msg) && msg.cmd != InitCommand && r.decision.Dispatch? ==>
              && r.decision.feature == msg.cmd
              && (msg.cmd != DidChangeCommand ==> msg.cmd in s.recent && s.recent[msg.cmd] == msg.id)
    ensures r.decision == Superseded <==>
              && !IsResponse(msg) && msg.cmd != InitCommand && msg.cmd != DidChangeCommand
              && EnsureClient(s, msg.params, features, outcome, describe).client.Success?
              && !(msg.cmd in s.recent && s.recent[msg.cmd] == msg.id)
    ensures var e := EnsureClient(s, msg.params, features, outcome, describe);
            !IsResponse(msg) && msg.cmd != InitCommand && e.client.Success?
            && (msg.cmd == DidChangeCommand || (msg.cmd in s.recent && s.recent[msg.cmd] == msg.id)) ==>
              r.decision == (if msg.cmd in e.client.value.dynamicFeatures then Dispatch(msg.cmd)
                             else Failed(NoFeature(msg.cmd)))
  {
    if IsResponse(msg) then Admitted(s, Ignored, [])
    else
      var e := EnsureClient(s, msg.params, features, outcome, describe);
      match e.client
      case Failure(err) => Admitted(e.rocks, Failed(err), e.notices)
      case Success(client) =>
        if msg.cmd == InitCommand then Admitted(e.rocks, Initialized, e.notices)
        else if !(msg.cmd in s.recent && s.recent[msg.cmd] == msg.id) && msg.cmd != DidChangeCommand then
          Admitted(e.rocks, Superseded, e.notices)
        else
          match Client.Route(client, msg.cmd)
          case Failure(err) => Admitted(e.rocks, Failed(err), e.notices)
          case Success(feature) => Admitted(e.rocks, Dispatch(feature), e.notices)
  }

  /** `mkres`: the `{id, cmd, data}` object that is stringified. */
  function MakeResponse(id: string, cmd: string, data: Json): (r: Json)
    ensures r.JObj? && r.fields.Keys == {"id", "cmd", "data"}
  {
    JObj(map["id" := JStr(id), "cmd" := JStr(cmd), "data" := data])
  }

  /** Reading a response object back. */
  function ReadResponse(j: Json): Option<(string, string, Json)> {
    if j.JObj? && "id" in j.fields && "cmd" in j.fields && "data" in j.fields
       && j.fields["id"].JStr? && j.fields["cmd"].JStr?
    then Some((j.fields["id"].s, j.fields["cmd"].s, j.fields["data"]))
    else None
  }

  lemma MakeResponseRoundTrip(id: string, cmd: string, data: Json)
    ensures ReadResponse(MakeResponse(id, cmd, data)) == Some((id, cmd, data))
  {
  }

  /** Null and undefined are both "no data". */
  predicate IsNullish(data: Option<Json>) {
    data.None? || data == Some(JNull)
  }

  /** `messageHandler` after the feature call settles with `data`. */
  function Deliver(s: Rocks, msg: Message, data: Reply<Json>): (r: Result<Option<Json>, Error>)
    ensures data.Rejected? ==> r == Failure(data.error)
    ensures data.Resolved? ==> r.Success?
    ensures r.Success? && r.value.Some? <==>
              && data.Resolved? && !IsNullish(data.value)
              && msg.cmd in s.recent && s.recent[msg.cmd] == msg.id
    ensures r.Success? && r.value.Some? ==> ReadResponse(r.value.value) == Some((msg.id, msg.cmd, data.value.value))
  {
    match data
    case Rejected(e) => Failure(e)
    case Resolved(v) =>
      if !(msg.cmd in s.recent && s.recent[msg.cmd] == msg.id) then Success(None)
      else if IsNullish(v) then Success(None)
      else
        MakeResponseRoundTrip(msg.id, msg.cmd, v.value);
        Success(Some(MakeResponse(msg.id, msg.cmd, v.value)))
  }

  /** What reaches the editor: the answer Deliver selects, written by
      `stringify` (`JSON.stringify`, a parameter) into an editor `message`
      call carrying the client's prefix. */
  function Emit(s: Rocks, msg: Message, data: Reply<Json>, stringify: Json -> string)
    : (r: Result<Option<seq<EpcUtils.Sexp>>, Error>)
    ensures data.Rejected? ==> r == Failure(data.error)
    ensures r.Success? && r.value.Some? <==> Deliver(s, msg, data).Success? && Deliver(s, msg, data).value.Some?
    ensures r.Success? && r.value.Some? ==>
              r.value.value == EpcUtils.MessageEmacs(stringify(MakeResponse(msg.id, msg.cmd, data.value.value)))
  {
    match Deliver(s, msg, data)
    case Failure(e) => Failure(e)
    case Success(None) => Success(None)
    case Success(Some(response)) => Success(Some(EpcUtils.MessageEmacs(stringify(response))))
  }

  /** The emitted text, after the prefix, is the written response. */
  lemma EmitCarriesResponse(s: Rocks, msg: Message, data: Reply<Json>, stringify: Json -> string)
    requires data.Resolved? && !IsNullish(data.value) && msg.cmd in s.recent && s.recent[msg.cmd] == msg.id
    ensures var r := Emit(s, msg, data, stringify);
            && r.Success? && r.value.Some?
            && r.value.value[1].inner.v.s[|EpcUtils.MessagePrefix|..]
               == stringify(MakeResponse(msg.id, msg.cmd, data.value.value))
  {
    EpcUtils.MessageKeepsText(stringify(MakeResponse(msg.id, msg.cmd, data.value.value)));
  }

  // ---------------------------------------------------------------------
  // Staleness over a run of arrivals

  function ArriveAll(s: Rocks, msgs: seq<Message>): Rocks
    decreases |msgs|
  {
    if |msgs| == 0 then s else ArriveAll(Arrive(s, msgs[0]), msgs[1..])
  }

  lemma {:induction false} ArriveAllSnoc(s: Rocks, msgs: seq<Message>, m: Message)
    ensures ArriveAll(s, msgs + [m]) == Arrive(ArriveAll(s, msgs), m)
    decreases |msgs|
  {
    if |msgs| == 0 {
      assert msgs + [m] == [m];
    } else {
      assert (msgs + [m])[1..] == msgs[1..] + [m];
      ArriveAllSnoc(Arrive(s, msgs[0]), msgs[1..], m);
    }
  }

  /** The id of the last message with command `cmd`, read from the back. */
  function LastId(msgs: seq<Message>, cmd: string): (r: Option<string>)
    ensures r.None? <==> forall j :: 0 <= j < |msgs| ==> msgs[j].cmd != cmd
    ensures r.Some? ==> exists j :: 0 <= j < |msgs| && msgs[j].cmd == cmd && msgs[j].id == r.value
    decreases |msgs|
  {
    if |msgs| == 0 then None
    else if msgs[|msgs| - 1].cmd == cmd then Some(msgs[|msgs| - 1].id)
    else
      var r := LastId(msgs[..|msgs| - 1], cmd);
      assert forall j :: 0 <= j < |msgs| - 1 ==> msgs[..|msgs| - 1][j] == msgs[j];
      r
  }

  function Lookup(recent: map<string, string>, cmd: string): Option<string> {
    if cmd in recent then Some(recent[cmd]) else None
  }

  /** After a run of arrivals, the latest id of a command is that of the
      last message with that command; a command that did not arrive keeps
      its entry. */
  lemma {:induction false} ArriveAllLatest(s: Rocks, msgs: seq<Message>, cmd: string)
    ensures ArriveAll(s, msgs).clients == s.clients
    ensures Lookup(ArriveAll(s, msgs).recent, cmd) ==
            (if LastId(msgs, cmd).Some? then LastId(msgs, cmd) else Lookup(s.recent, cmd))
    decreases |msgs|
  {
    if |msgs| > 0 {
      var n := |msgs| - 1;
      assert msgs == msgs[..n] + [msgs[n]];
      ArriveAllSnoc(s, msgs[..n], msgs[n]);
      ArriveAllLatest(s, msgs[..n], cmd);
    }
  }

  /** A message followed, before its answer is delivered, by another
      message of the same command with a different id is never delivered;
      before the feature call it is dropped as superseded unless it is a
      `didChange`. */
  lemma SupersededNeverDelivered(s: Rocks, m: Message, later: seq<Message>, data: Reply<Json>,
                                 features: set<string>, outcome: Client.StartOutcome,
                                 describe: Error -> string)
    requires exists j :: 0 <= j < |later| && later[j].cmd == m.cmd
    requires forall j :: 0 <= j < |later| && later[j].cmd == m.cmd ==> later[j].id != m.id
    ensures var t := ArriveAll(Arrive(s, m), later);
            && (Deliver(t, m, data).Success? ==> Deliver(t, m, data).value.None?)
            && (!IsResponse(m) && m.cmd != InitCommand && m.cmd != DidChangeCommand
                && EnsureClient(t, m.params, features, outcome, describe).client.Success? ==>
                  Admit(t, m, features, outcome, describe).decision == Superseded)
  {
    ArriveAllLatest(Arrive(s, m), later, m.cmd);
    var t := ArriveAll(Arrive(s, m), later);
    assert !(m.cmd in t.recent && t.recent[m.cmd] == m.id);
  }

  /** A `didChange` still reaches its feature after newer `didChange`s have
      arrived, but its answer is not delivered. */
  lemma DidChangeDispatchedWhenStale(s: Rocks, m: Message, newer: Message, features: set<string>,
                                     outcome: Client.StartOutcome, data: Reply<Json>,
                                     describe: Error -> string)
    requires m.cmd == DidChangeCommand && newer.cmd == DidChangeCommand && newer.id != m.id
    requires TestClientId in s.clients && DidChangeCommand in s.clients[TestClientId].dynamicFeatures
    ensures var t := Arrive(Arrive(s, m), newer);
            && Admit(t, m, features, outcome, describe).decision == Dispatch(DidChangeCommand)
            && (data.Resolved? ==> Deliver(t, m, data) == Success(None))
  {
  }

  /** Staleness is keyed by command alone: messages of other commands do
      not affect whether a message is delivered. */
  lemma OtherCommandsIrrelevant(s: Rocks, m: Message, other: seq<Message>, data: Reply<Json>)
    requires forall j :: 0 <= j < |other| ==> other[j].cmd != m.cmd
    ensures Deliver(ArriveAll(Arrive(s, m), other), m, data) == Deliver(Arrive(s, m), m, data)
  {
    ArriveAllLatest(Arrive(s, m), other, m.cmd);
    assert LastId(other, m.cmd).None?;
  }
}

=== FILE: protocol.dfy ===
/** Shapes of the Language Server Protocol and of the editor channel that
    the modelled core reads and writes.  Only the fields the core looks at
    are represented; everything else travels as an opaque `Json` value. */
module Protocol {
  import opened Wrappers

  /** A JSON value as it crosses either channel. */
  datatype Json =
    | JNull
    | JBool(b: bool)
    | JNum(n: int)
    | JStr(s: string)
    | JArr(elems: seq<Json>)
    | JObj(fields: map<string, Json>)

  type Uri = string

  datatype Position = Position(line: nat, character: nat)

  datatype Range = Range(start: Position, end: Position)

  datatype TextEdit = TextEdit(range: Range, newText: string)

  /** The errors the core raises or propagates. */
  datatype Error =
    | ConnectionInactive                 // ResponseError(ConnectionInactive, "Client is not running")
    | NotReady                           // onRequest on an inactive client
    | CurrentlyStopping                  // start() while stopping
    | StoppingWithoutPromise
    | NotRunning                         // shutdown of a client that is not running
    | StopTimedOut
    | UnsupportedEncoding(encoding: string)
    | NoFeature(forMethod: string)          // `on` for a method without a feature
    | MissingInitParams                  // ensureClient without params
    | NoSuchVariable(name: string)
    | Transport(reason: string)          // failure reported by the server or the connection

  /** Outcome of awaiting a request: the promise rejects, or it resolves to
      a value that may be `null`/`undefined` (`None`). */
  datatype Reply<+T> = Rejected(error: Error) | Resolved(value: Option<T>)

  // ---------------------------------------------------------------------
  // Completion items

  datatype Documentation =
    | PlainDoc(text: string)
    | MarkupDoc(kind: string, value: string)

  datatype ItemEdit =
    | PlainEdit(edit: TextEdit)
    | InsertReplaceEdit(newText: string, insert: Range, replace: Range)

  datatype CompletionItem = CompletionItem(
    labelText: string,
    kind: Option<int>,
    detail: Option<string>,
    documentation: Option<Documentation>,
    sortText: Option<string>,
    filterText: Option<string>,
    textEdit: Option<ItemEdit>)

  // ---------------------------------------------------------------------
  // Server capabilities

  datatype CompletionOptions = CompletionOptions(
    triggerCharacters: Option<seq<string>>,
    resolveProvider: Option<bool>)

  datatype SaveOptions = SaveOptions(includeText: Option<bool>)

  datatype TextDocumentSyncOptions = TextDocumentSyncOptions(
    openClose: Option<bool>,
    change: Option<int>,
    save: Option<SaveOptions>)

  /** `textDocumentSync` as a server may declare it. */
  datatype SyncDeclaration =
    | SyncAbsent
    | SyncNull
    | SyncKind(kind: int)
    | SyncDetailed(options: TextDocumentSyncOptions)

  /** TextDocumentSyncKind.None */
  const SyncKindNone := 0

  /** `positionEncoding` as a server may declare it: left out, `null`, or a
      kind name. */
  datatype PositionEncoding =
    | EncodingAbsent
    | EncodingNull
    | EncodingName(name: string)

  datatype ServerCapabilities = ServerCapabilities(
    positionEncoding: PositionEncoding,
    textDocumentSync: SyncDeclaration,
    completionProvider: Option<CompletionOptions>,
    providers: set<string>)   // names of the other `...Provider` fields that are set

  datatype InitializeResult = InitializeResult(capabilities: ServerCapabilities)
}

=== FILE: rename.dfy ===
/** features/rename.ts: flattening a rename answer's `changes` into
    `documentChanges`, and normalising a prepare-rename answer. */
module Rename {
  import opened Wrappers
  import opened Protocol

  /** One `changes` entry: a document and its edits. */
  datatype Change = Change(uri: Uri, edits: seq<TextEdit>)

  /** An entry of `documentChanges`: an edit of one document, or a
      create/rename/delete operation carried through untouched. */
  datatype DocumentChange =
    | TextDocumentEdit(uri: Uri, version: Option<int>, edits: seq<TextEdit>)
    | FileOperation(op: Json)

  /** `WorkspaceEdit`; `changes` lists the object's keys in the order
      `Object.keys` enumerates them. */
  datatype WorkspaceEdit = WorkspaceEdit(
    changes: Option<seq<Change>>,
    documentChanges: Option<seq<DocumentChange>>,
    changeAnnotations: Option<Json>)

  /** One `TextDocumentEdit` per key of `changes`, in key order. */
  function AsDocumentChanges(changes: seq<Change>): (r: seq<DocumentChange>)
    ensures |r| == |changes|
    ensures forall i :: 0 <= i < |r| ==> r[i] == TextDocumentEdit(changes[i].uri, None, changes[i].edits)
  {
    seq(|changes|, i requires 0 <= i < |changes| => TextDocumentEdit(changes[i].uri, None, changes[i].edits))
  }

  /** Reading the per-document edits back out of document changes. */
  function EditsOf(docs: seq<DocumentChange>): seq<Change> {
    if |docs| == 0 then []
    else if docs[0].TextDocumentEdit? then [Change(docs[0].uri, docs[0].edits)] + EditsOf(docs[1..])
    else EditsOf(docs[1..])
  }

  /** The in-place rewrite of a non-null rename answer. */
  function Flatten(resp: WorkspaceEdit): (r: WorkspaceEdit)
    ensures resp.changes.None? ==> r == resp
    ensures r.changes == resp.changes && r.changeAnnotations == resp.changeAnnotations
    ensures resp.changes.Some? ==>
              r.documentChanges == Some(resp.documentChanges.GetOr([]) + AsDocumentChanges(resp.changes.value))
  {
    match resp.changes
    case None => resp
    case Some(changes) =>
      resp.(documentChanges := Some(resp.documentChanges.GetOr([]) + AsDocumentChanges(changes)))
  }

  /** The flattened entries carry exactly the `changes`: reading the edits
      back from the appended part gives the original list. */
  lemma {:induction false} AsDocumentChangesRoundTrip(changes: seq<Change>)
    ensures EditsOf(AsDocumentChanges(changes)) == changes
    decreases |changes|
  {
    if |changes| > 0 {
      assert AsDocumentChanges(changes)[1..] == AsDocumentChanges(changes[1..]);
      AsDocumentChangesRoundTrip(changes[1..]);
    }
  }

  lemma {:induction false} EditsOfConcat(a: seq<DocumentChange>, b: seq<DocumentChange>)
    ensures EditsOf(a + b) == EditsOf(a) + EditsOf(b)
    decreases |a|
  {
    if |a| > 0 {
      assert (a + b)[0] == a[0];
      assert (a + b)[1..] == a[1..] + b;
      EditsOfConcat(a[1..], b);
      if a[0].TextDocumentEdit? {
        var c := [Change(a[0].uri, a[0].edits)];
        assert EditsOf(a + b) == c + (EditsOf(a[1..]) + EditsOf(b));
        assert c + (EditsOf(a[1..]) + EditsOf(b)) == (c + EditsOf(a[1..])) + EditsOf(b);
      }
    } else {
      assert a + b == b;
    }
  }

  /** After flattening, the document edits are those the answer already
      had in `documentChanges`, followed by every entry of `changes`. */
  lemma FlattenKeepsEdits(resp: WorkspaceEdit)
    requires resp.changes.Some?
    ensures EditsOf(Flatten(resp).documentChanges.value)
            == EditsOf(resp.documentChanges.GetOr([])) + resp.changes.value
  {
    EditsOfConcat(resp.documentChanges.GetOr([]), AsDocumentChanges(resp.changes.value));
    AsDocumentChangesRoundTrip(resp.changes.value);
  }

  /** `RenameFeature.runWith`: `resp` is how the rename request settles. */
  function RunRename(resp: Reply<WorkspaceEdit>): (r: Result<Option<WorkspaceEdit>, Error>)
    ensures resp.Rejected? ==> r == Failure(resp.error)
    ensures resp == Resolved(None) ==> r == Success(None)
    ensures resp.Resolved? && resp.value.Some? ==>
              r.Success? && r.value.Some? && r.value.value.changes == resp.value.value.changes
    ensures resp.Resolved? && resp.value.Some? && resp.value.value.changes.None? ==>
              r == Success(resp.value)
    ensures resp.Resolved? && resp.value.Some? ==> r == Success(Some(Flatten(resp.value.value)))
  {
    match resp
    case Rejected(e) => Failure(e)
    case Resolved(None) => Success(None)
    case Resolved(Some(edit)) => Success(Some(Flatten(edit)))
  }

  /** A non-null rename answer reaches the editor with every edit of
      `changes` among its document changes, after the ones it already had. */
  lemma RunRenameKeepsEdits(edit: WorkspaceEdit)
    requires edit.changes.Some?
    ensures var r := RunRename(Resolved(Some(edit)));
            && r.Success? && r.value.Some? && r.value.value.documentChanges.Some?
            && EditsOf(r.value.value.documentChanges.value)
               == EditsOf(edit.documentChanges.GetOr([])) + edit.changes.value
  {
    FlattenKeepsEdits(edit);
  }

  // ---------------------------------------------------------------------
  // Prepare rename

  /** A non-null prepare-rename answer is a JSON object; the feature only
      asks which keys it has. */
  function NormalizePrepare(fields: map<string, Json>): (r: Option<map<string, Json>>)
    ensures "defaultBehavior" in fields ==> r.None?
    ensures "defaultBehavior" !in fields && "start" !in fields ==> r == Some(fields)
    ensures "defaultBehavior" !in fields && "start" in fields ==>
              && r.Some? && r.value.Keys == {"range", "placeholder"}
              && r.value["placeholder"] == JStr("")
              && r.value["range"].JObj? && "start" in r.value["range"].fields
              && r.value["range"].fields["start"] == fields["start"]
              && ("end" in r.value["range"].fields <==> "end" in fields)
              && ("end" in fields ==> r.value["range"].fields["end"] == fields["end"])
              && r.value["range"].fields.Keys <= {"start", "end"}
  {
    if "defaultBehavior" in fields then None
    else if "start" in fields then
      var ends := if "end" in fields then map["end" := fields["end"]] else map[];
      Some(map["range" := JObj(map["start" := fields["start"]] + ends), "placeholder" := JStr("")])
    else Some(fields)
  }

  /** Normalising a normalised answer changes nothing. */
  lemma NormalizePrepareIdempotent(fields: map<string, Json>)
    requires NormalizePrepare(fields).Some?
    ensures NormalizePrepare(NormalizePrepare(fields).value) == NormalizePrepare(fields)
  {
  }

  /** `PrepareRenameFeature.runWith`. */
  function RunPrepareRename(resp: Reply<map<string, Json>>): (r: Result<Option<map<string, Json>>, Error>)
    ensures resp.Rejected? ==> r == Failure(resp.error)
    ensures resp == Resolved(None) ==> r == Success(None)
    ensures resp.Resolved? && resp.value.Some? ==> r == Success(NormalizePrepare(resp.value.value))
  {
    match resp
    case Rejected(e) => Failure(e)
    case Resolved(None) => Success(None)
    case Resolved(Some(fields)) => Success(NormalizePrepare(fields))
  }
}

=== FILE: tailwind.dfy ===
/** langserver/tailwindcss.ts: the logic of the Tailwind CSS server
    descriptor.  The file-system probe enters as `fileExists(root, rel)`,
    standing for `existsSync(join(root, rel))`. */
module Tailwind {
  import opened Wrappers
  import opened Protocol

  const ConfigDirs: seq<string> := ["", "config/", "assets/"]
  const ConfigExtensions: seq<string> := ["js", "cjs", "ts"]

  /** The candidate configuration files, relative to the workspace root, in
      the order they are probed: each extension at the root, under
      `config/` and under `assets/`. */
  const ConfigFiles: seq<string> := [
    ConfigPath(0, 0), ConfigPath(1, 0), ConfigPath(2, 0),
    ConfigPath(0, 1), ConfigPath(1, 1), ConfigPath(2, 1),
    ConfigPath(0, 2), ConfigPath(1, 2), ConfigPath(2, 2)]

  const TriggerDash := "-"

  /** `configFiles.some(...)`. */
  function AnyExists(root: string, files: seq<string>, fileExists: (string, string) -> bool): (r: bool)
    ensures r <==> exists i :: 0 <= i < |files| && fileExists(root, files[i])
    decreases |files|
  {
    if |files| == 0 then false
    else
      var rest := AnyExists(root, files[1..], fileExists);
      assert forall i :: 1 <= i < |files| ==> files[i] == files[1..][i - 1];
      fileExists(root, files[0]) || rest
  }

  /** `activate`; the file path is not consulted. */
  function Activate(filePath: string, root: string, fileExists: (string, string) -> bool): (r: bool)
    ensures r <==> exists i :: 0 <= i < |ConfigFiles| && fileExists(root, ConfigFiles[i])
  {
    AnyExists(root, ConfigFiles, fileExists)
  }

  /** `join(dir, 'tailwind.config.' + ext)` for one directory and one
      extension. */
  function ConfigPath(d: nat, e: nat): string
    requires d < |ConfigDirs| && e < |ConfigExtensions|
  {
    ConfigDirs[d] + "tailwind.config." + ConfigExtensions[e]
  }

  /** Activation depends on the workspace root alone. */
  lemma ActivateIgnoresFile(a: string, b: string, root: string, fileExists: (string, string) -> bool)
    ensures Activate(a, root, fileExists) == Activate(b, root, fileExists)
  {
  }

  /** Activation holds iff some directory and extension of the grid has a
      configuration file. */
  lemma ActivateByGrid(filePath: string, root: string, fileExists: (string, string) -> bool)
    ensures Activate(filePath, root, fileExists) <==>
              exists e, d :: 0 <= e < |ConfigExtensions| && 0 <= d < |ConfigDirs| && fileExists(root, ConfigPath(d, e))
  {
    if Activate(filePath, root, fileExists) {
      var i :| 0 <= i < |ConfigFiles| && fileExists(root, ConfigFiles[i]);
      assert ConfigFiles[i] == ConfigPath(i % 3, i / 3);
    } else {
      forall e, d | 0 <= e < |ConfigExtensions| && 0 <= d < |ConfigDirs|
        ensures !fileExists(root, ConfigPath(d, e))
      {
        assert ConfigFiles[e * 3 + d] == ConfigPath(d, e);
      }
    }
  }

  /** `initializedFn`: when the server declares completion trigger
      characters, `-` is appended to them. */
  function InitializedFn(result: InitializeResult): (r: InitializeResult)
    ensures result.capabilities.completionProvider.None? ==> r == result
    ensures (result.capabilities.completionProvider.Some?
             && result.capabilities.completionProvider.value.triggerCharacters.None?) ==> r == result
    ensures result.capabilities.completionProvider.Some?
            && result.capabilities.completionProvider.value.triggerCharacters.Some? ==>
              && r.capabilities.completionProvider.Some?
              && r.capabilities.completionProvider.value.triggerCharacters
                 == Some(result.capabilities.completionProvider.value.triggerCharacters.value + [TriggerDash])
              && r.capabilities.completionProvider.value.resolveProvider
                 == result.capabilities.completionProvider.value.resolveProvider
              && r.capabilities.(completionProvider := None) == result.capabilities.(completionProvider := None)
  {
    match result.capabilities.completionProvider
    case Some(cp) =>
      (match cp.triggerCharacters
       case Some(chars) =>
         result.(capabilities := result.capabilities.(completionProvider :=
                                   Some(cp.(triggerCharacters := Some(chars + [TriggerDash])))))
       case None => result)
    case None => result
  }

  /** The patch is not idempotent: applied twice, `-` is appended twice. */
  lemma InitializedFnTwice(result: InitializeResult)
    requires result.capabilities.completionProvider.Some?
    requires result.capabilities.completionProvider.value.triggerCharacters.Some?
    ensures InitializedFn(InitializedFn(result)).capabilities.completionProvider.value.triggerCharacters
            == Some(result.capabilities.completionProvider.value.triggerCharacters.value + [TriggerDash, TriggerDash])
    ensures InitializedFn(InitializedFn(result)) != InitializedFn(result)
  {
    var chars := result.capabilities.completionProvider.value.triggerCharacters.value;
    assert chars + [TriggerDash] + [TriggerDash] == chars + [TriggerDash, TriggerDash];
    assert |chars + [TriggerDash, TriggerDash]| != |chars + [TriggerDash]|;
  }

  /** Dropping the trailing `-` undoes the patch. */
  function DropDash(result: InitializeResult): InitializeResult {
    match result.capabilities.completionProvider
    case Some(cp) =>
      (match cp.triggerCharacters
       case Some(chars) =>
         if |chars| > 0 && chars[|chars| - 1] == TriggerDash then
           result.(capabilities := result.capabilities.(completionProvider :=
                                     Some(cp.(triggerCharacters := Some(chars[..|chars| - 1])))))
         else result
       case None => result)
    case None => result
  }

  lemma InitializedFnUndo(result: InitializeResult)
    ensures DropDash(InitializedFn(result)) == result
  {
    match result.capabilities.completionProvider
    case Some(cp) =>
      if cp.triggerCharacters.Some? {
        var chars := cp.triggerCharacters.value;
        assert (chars + [TriggerDash])[..|chars|] == chars;
      }
    case None =>
  }

  /** The two groups of `settings`; an absent group spreads to nothing. */
  datatype Settings = Settings(editor: Option<map<string, Json>>, tailwindCSS: Option<map<string, Json>>)

  /** `initializeOptions`: the editor settings, overridden by the Tailwind
      settings. */
  function InitializeOptions(settings: Settings): (r: map<string, Json>)
    ensures r.Keys == settings.editor.GetOr(map[]).Keys + settings.tailwindCSS.GetOr(map[]).Keys
    ensures forall k :: k in settings.tailwindCSS.GetOr(map[]) ==> r[k] == settings.tailwindCSS.value[k]
    ensures forall k :: k in settings.editor.GetOr(map[]) && k !in settings.tailwindCSS.GetOr(map[]) ==>
              r[k] == settings.editor.value[k]
  {
    settings.editor.GetOr(map[]) + settings.tailwindCSS.GetOr(map[])
  }

  /** Without Tailwind settings the editor settings pass through, and the
      other way round. */
  lemma InitializeOptionsOneGroup(m: map<string, Json>)
    ensures InitializeOptions(Settings(Some(m), None)) == m
    ensures InitializeOptions(Settings(None, Some(m))) == m
  {
  }
}

=== FILE: text_sync.dfy ===
/** features/textSynchronization.ts: the per-client record of opened
    documents and the five text-synchronization notifications.  Each
    operation returns the new `openedFiles` and the notifications handed to
    `sendNotification` (whose own guard is modelled in `Client`). */
module TextSync {
  import opened Protocol

  const DidOpenMethod := "textDocument/didOpen"
  const DidCloseMethod := "textDocument/didClose"
  const DidChangeMethod := "textDocument/didChange"
  const WillSaveMethod := "textDocument/willSave"
  const DidSaveMethod := "textDocument/didSave"

  /** Notification parameters: the document and the rest of the payload. */
  datatype DocParams = DocParams(uri: Uri, rest: Json)

  datatype Notification = Notification(notifyMethod: string, params: DocParams)

  datatype Step = Step(openedFiles: seq<Uri>, sent: seq<Notification>)

  predicate NoDuplicates(s: seq<Uri>) {
    forall i, j :: 0 <= i < j < |s| ==> s[i] != s[j]
  }

  /** `openedFiles.filter(file => uri !== file)`. */
  function Without(s: seq<Uri>, uri: Uri): (r: seq<Uri>)
    ensures uri !in r
    ensures forall u :: u in r <==> u in s && u != uri
    ensures |r| <= |s|
    ensures NoDuplicates(s) ==> NoDuplicates(r)
  {
    if |s| == 0 then []
    else if s[0] == uri then Without(s[1..], uri)
    else
      var t := Without(s[1..], uri);
      assert NoDuplicates(s) ==> forall k :: 0 <= k < |s[1..]| ==> s[1..][k] != s[0] by {
        assert forall k :: 0 <= k < |s[1..]| ==> s[1..][k] == s[k + 1];
      }
      if NoDuplicates(s) then ConsNoDuplicates(s[0], t); [s[0]] + t
      else [s[0]] + t
  }

  lemma ConsNoDuplicates(u: Uri, t: seq<Uri>)
    requires u !in t && NoDuplicates(t)
    ensures NoDuplicates([u] + t)
  {
    forall i, j | 0 <= i < j < |[u] + t|
      ensures ([u] + t)[i] != ([u] + t)[j]
    {
      assert ([u] + t)[j] == t[j - 1];
      if i > 0 {
        assert ([u] + t)[i] == t[i - 1];
      }
    }
  }

  /** `DidOpenTextDocumentFeature.runWith`. */
  function DidOpen(openedFiles: seq<Uri>, params: DocParams): (r: Step)
    ensures params.uri in openedFiles ==> r == Step(openedFiles, [])
    ensures params.uri !in openedFiles ==>
              r == Step(openedFiles + [params.uri], [Notification(DidOpenMethod, params)])
    ensures NoDuplicates(openedFiles) ==> NoDuplicates(r.openedFiles)
    ensures params.uri in r.openedFiles
  {
    if params.uri in openedFiles then Step(openedFiles, [])
    else Step(openedFiles + [params.uri], [Notification(DidOpenMethod, params)])
  }

  /** `DidCloseTextDocumentFeature.runWith`. */
  function DidClose(openedFiles: seq<Uri>, params: DocParams): (r: Step)
    ensures params.uri !in openedFiles ==> r == Step(openedFiles, [])
    ensures params.uri in openedFiles ==> r.sent == [Notification(DidCloseMethod, params)]
    ensures params.uri !in r.openedFiles
    ensures forall u :: u != params.uri ==> (u in r.openedFiles <==> u in openedFiles)
    ensures NoDuplicates(openedFiles) ==> NoDuplicates(r.openedFiles)
  {
    if params.uri !in openedFiles then Step(openedFiles, [])
    else Step(Without(openedFiles, params.uri), [Notification(DidCloseMethod, params)])
  }

  /** The other entries keep their relative order when one is closed. */
  lemma {:induction false} WithoutKeepsOrder(s: seq<Uri>, uri: Uri, i: nat, j: nat)
    requires i < j < |s| && s[i] != uri && s[j] != uri
    ensures exists a, b :: 0 <= a < b < |Without(s, uri)| && Without(s, uri)[a] == s[i] && Without(s, uri)[b] == s[j]
  {
    if s[0] == uri {
      WithoutKeepsOrder(s[1..], uri, i - 1, j - 1);
      var t := Without(s[1..], uri);
      var a, b :| 0 <= a < b < |t| && t[a] == s[1..][i - 1] && t[b] == s[1..][j - 1];
      assert Without(s, uri) == t;
      assert Without(s, uri)[a] == s[i] && Without(s, uri)[b] == s[j];
    } else if i == 0 {
      var t := Without(s[1..], uri);
      assert s[j] == s[1..][j - 1];
      assert s[j] in t;
      var b :| 0 <= b < |t| && t[b] == s[j];
      assert Without(s, uri) == [s[0]] + t;
      assert Without(s, uri)[0] == s[i] && Without(s, uri)[b + 1] == s[j];
    } else {
      WithoutKeepsOrder(s[1..], uri, i - 1, j - 1);
      var t := Without(s[1..], uri);
      var a, b :| 0 <= a < b < |t| && t[a] == s[1..][i - 1] && t[b] == s[1..][j - 1];
      assert Without(s, uri) == [s[0]] + t;
      assert Without(s, uri)[a + 1] == s[i] && Without(s, uri)[b + 1] == s[j];
    }
  }

  /** `didChange`, `willSave` and `didSave` forward their parameters. */
  function Forward(openedFiles: seq<Uri>, notifyMethod: string, params: DocParams): (r: Step)
    ensures r.openedFiles == openedFiles
    ensures r.sent == [Notification(notifyMethod, params)]
  {
    Step(openedFiles, [Notification(notifyMethod, params)])
  }

  function DidChange(openedFiles: seq<Uri>, params: DocParams): (r: Step)
    ensures r.openedFiles == openedFiles
    ensures r.sent == [Notification(DidChangeMethod, params)]
  {
    Forward(openedFiles, DidChangeMethod, params)
  }

  function WillSave(openedFiles: seq<Uri>, params: DocParams): (r: Step)
    ensures r.openedFiles == openedFiles
    ensures r.sent == [Notification(WillSaveMethod, params)]
  {
    Forward(openedFiles, WillSaveMethod, params)
  }

  function DidSave(openedFiles: seq<Uri>, params: DocParams): (r: Step)
    ensures r.openedFiles == openedFiles
    ensures r.sent == [Notification(DidSaveMethod, params)]
  {
    Forward(openedFiles, DidSaveMethod, params)
  }

  datatype SyncEvent =
    | Open(params: DocParams)
    | Close(params: DocParams)
    | Change(params: DocParams)
    | WillSaveEvent(params: DocParams)
    | Save(params: DocParams)

  function Apply(openedFiles: seq<Uri>, e: SyncEvent): Step {
    match e
    case Open(p) => DidOpen(openedFiles, p)
    case Close(p) => DidClose(openedFiles, p)
    case Change(p) => DidChange(openedFiles, p)
    case WillSaveEvent(p) => WillSave(openedFiles, p)
    case Save(p) => DidSave(openedFiles, p)
  }

  /** Running a sequence of synchronization events from `openedFiles`. */
  function Run(openedFiles: seq<Uri>, events: seq<SyncEvent>): Step
    decreases |events|
  {
    if |events| == 0 then Step(openedFiles, [])
    else
      var first := Apply(openedFiles, events[0]);
      var rest := Run(first.openedFiles, events[1..]);
      Step(rest.openedFiles, first.sent + rest.sent)
  }

  /** `openedFiles` never holds a URI twice, whatever the events. */
  lemma {:induction false} RunKeepsNoDuplicates(openedFiles: seq<Uri>, events: seq<SyncEvent>)
    requires NoDuplicates(openedFiles)
    ensures NoDuplicates(Run(openedFiles, events).openedFiles)
    decreases |events|
  {
    if |events| > 0 {
      RunKeepsNoDuplicates(Apply(openedFiles, events[0]).openedFiles, events[1..]);
    }
  }

  /** Opening a document twice sends a single didOpen. */
  lemma OpenTwiceSendsOnce(openedFiles: seq<Uri>, params: DocParams)
    requires params.uri !in openedFiles
    ensures Run(openedFiles, [Open(params), Open(params)]).sent == [Notification(DidOpenMethod, params)]
  {
    var first := DidOpen(openedFiles, params);
    assert first.sent == [Notification(DidOpenMethod, params)];
    var second := DidOpen(first.openedFiles, params);
    assert second.sent == [];
    assert [Open(params), Open(params)][1..] == [Open(params)];
    assert [Open(params)][1..] == [];
    assert Run(second.openedFiles, []).sent == [];
    assert Run(first.openedFiles, [Open(params)]).sent == [];
  }
}

=== FILE: utf8_index.dfy ===
/** utils/string.ts: mapping a UTF-8 byte offset, as the editor reports it,
    to a UTF-16 index into the same text, as JavaScript strings count.
    Content is the sequence of code points a `for ... of` loop visits. */
module Utf8Index {
  import opened Wrappers

  const Utf8TwoBytesStart := 0x80
  const Utf8ThreeBytesStart := 0x800
  const Utf8FourBytesStart := 65536

  type CodePoint = c: int | 0 <= c <= 0x10FFFF

  /** `utf8_code2len`. */
  function Utf8CodeLen(code: int): (n: int)
    ensures 1 <= n <= 4
  {
    if code < Utf8TwoBytesStart then 1
    else if code < Utf8ThreeBytesStart then 2
    else if code < Utf8FourBytesStart then 3
    else 4
  }

  // -----------------------------------------------------------------------
  // The UTF-8 encoding of section 3 of RFC 3629, as a reference.

  /** The octets of `c` following the bit layout of section 3 of RFC 3629. */
  function Utf8Encode(c: CodePoint): seq<int> {
    if c < 0x80 then [c]
    else if c < 0x800 then [0xC0 + c / 64, 0x80 + c % 64]
    else if c < 0x10000 then [0xE0 + c / 4096, 0x80 + (c / 64) % 64, 0x80 + c % 64]
    else [0xF0 + c / 262144, 0x80 + (c / 4096) % 64, 0x80 + (c / 64) % 64, 0x80 + c % 64]
  }

  /** Decoding one well-formed octet sequence back to its code point. */
  function Utf8Decode(b: seq<int>): int {
    if |b| == 1 then b[0]
    else if |b| == 2 then (b[0] - 0xC0) * 64 + (b[1] - 0x80)
    else if |b| == 3 then (b[0] - 0xE0) * 4096 + (b[1] - 0x80) * 64 + (b[2] - 0x80)
    else if |b| == 4 then (b[0] - 0xF0) * 262144 + (b[1] - 0x80) * 4096 + (b[2] - 0x80) * 64 + (b[3] - 0x80)
    else 0
  }

  /** The length table agrees with the encoding of RFC 3629: the encoding
      has `utf8_code2len` octets, each an octet, the first one announcing the
      length as section 3 prescribes. */
  lemma Utf8LengthTable(c: CodePoint)
    ensures |Utf8Encode(c)| == Utf8CodeLen(c)
    ensures forall k :: 0 <= k < |Utf8Encode(c)| ==> 0 <= Utf8Encode(c)[k] <= 0xFF
    ensures Utf8CodeLen(c) == 1 <==> Utf8Encode(c)[0] < 0x80
    ensures Utf8CodeLen(c) == 2 <==> 0xC0 <= Utf8Encode(c)[0] < 0xE0
    ensures Utf8CodeLen(c) == 3 <==> 0xE0 <= Utf8Encode(c)[0] < 0xF0
    ensures Utf8CodeLen(c) == 4 <==> 0xF0 <= Utf8Encode(c)[0] < 0xF8
  {
    if c >= 0x10000 {
      assert c / 262144 <= 4;
    }
  }

  /** Decoding the octets gives the code point back. */
  lemma Utf8RoundTrip(c: CodePoint)
    ensures Utf8Decode(Utf8Encode(c)) == c
  {
    if c >= 0x10000 {
      Utf8RoundTripFour(c);
    } else if c >= 0x800 {
      assert c == (c / 4096) * 4096 + ((c / 64) % 64) * 64 + c % 64;
    } else if c >= 0x80 {
      assert c == (c / 64) * 64 + c % 64;
    }
  }

  lemma Utf8RoundTripFour(c: CodePoint)
    requires c >= 0x10000
    ensures Utf8Decode(Utf8Encode(c)) == c
  {
    var q := c / 64;
    assert c == q * 64 + c % 64;
    assert q == (q / 64) * 64 + q % 64;
    assert c / 4096 == q / 64;
    var p := c / 4096;
    assert p == (p / 64) * 64 + p % 64;
    assert c / 262144 == p / 64;
  }

  // -----------------------------------------------------------------------
  // Lengths of a text

  /** UTF-16 code units of one code point. */
  function Utf16Width(c: CodePoint): nat {
    if c >= Utf8FourBytesStart then 2 else 1
  }

  /** UTF-8 octets the loop of `characterIndex` adds for one code point. */
  function ByteWidth(c: CodePoint): nat {
    if c >= Utf8FourBytesStart then 4 else Utf8CodeLen(c)
  }

  function ByteLen(s: seq<CodePoint>): nat {
    if |s| == 0 then 0 else ByteWidth(s[0]) + ByteLen(s[1..])
  }

  function Utf16Len(s: seq<CodePoint>): nat {
    if |s| == 0 then 0 else Utf16Width(s[0]) + Utf16Len(s[1..])
  }

  /** The JavaScript string of a code-point sequence (surrogate pairs above
      the Basic Multilingual Plane). */
  function Utf16(s: seq<CodePoint>): (u: seq<int>)
    ensures |u| == Utf16Len(s)
  {
    if |s| == 0 then []
    else
      var c := s[0];
      (if c >= 0x10000 then [0xD800 + (c - 0x10000) / 1024, 0xDC00 + (c - 0x10000) % 1024] else [c])
      + Utf16(s[1..])
  }

  /** Each code point costs as many octets as RFC 3629 assigns it. */
  lemma {:induction false} ByteLenIsUtf8Length(s: seq<CodePoint>)
    ensures ByteLen(s) == Utf8Octets(s)
  {
    if |s| > 0 {
      Utf8LengthTable(s[0]);
      ByteLenIsUtf8Length(s[1..]);
    }
  }

  function Utf8Octets(s: seq<CodePoint>): nat {
    if |s| == 0 then 0 else |Utf8Encode(s[0])| + Utf8Octets(s[1..])
  }

  // -----------------------------------------------------------------------
  // characterIndex

  /** The loop of `characterIndex` after consuming the code points before
      `s`, having counted `chars` UTF-16 units and `total` octets. */
  function Scan(s: seq<CodePoint>, byteIndex: int, chars: nat, total: int): (r: nat)
    ensures chars <= r <= chars + Utf16Len(s)
    ensures |s| > 0 ==> r > chars
  {
    if |s| == 0 then chars
    else
      var chars' := chars + Utf16Width(s[0]);
      var total' := total + ByteWidth(s[0]);
      if total' >= byteIndex then chars' else Scan(s[1..], byteIndex, chars', total')
  }

  /** `characterIndex(content, byteIndex)`. */
  function CharacterIndex(content: seq<CodePoint>, byteIndex: int): (r: nat)
    ensures r <= Utf16Len(content)
    ensures byteIndex != 0 && |content| > 0 ==> r > 0
  {
    if byteIndex == 0 then 0 else Scan(content, byteIndex, 0, 0)
  }

  /** How many code points the loop consumes before it stops: the first
      prefix whose octets reach `need`, or all of them. */
  function Reach(s: seq<CodePoint>, need: int): (k: nat)
    ensures k <= |s|
  {
    if |s| == 0 then 0
    else if ByteWidth(s[0]) >= need then 1
    else 1 + Reach(s[1..], need - ByteWidth(s[0]))
  }

  lemma {:induction false} PrefixStep(s: seq<CodePoint>, k: nat)
    requires 0 < k <= |s|
    ensures Utf16Len(s[..k]) == Utf16Width(s[0]) + Utf16Len(s[1..][..k - 1])
    ensures ByteLen(s[..k]) == ByteWidth(s[0]) + ByteLen(s[1..][..k - 1])
  {
    assert s[..k][1..] == s[1..][..k - 1];
  }

  lemma {:induction false} ScanReaches(s: seq<CodePoint>, byteIndex: int, chars: nat, total: int)
    ensures Scan(s, byteIndex, chars, total) == chars + Utf16Len(s[..Reach(s, byteIndex - total)])
  {
    if |s| > 0 {
      var k := Reach(s, byteIndex - total);
      PrefixStep(s, k);
      if ByteWidth(s[0]) < byteIndex - total {
        ScanReaches(s[1..], byteIndex, chars + Utf16Width(s[0]), total + ByteWidth(s[0]));
      } else {
        assert s[1..][..0] == [];
      }
    }
  }

  /** Octet lengths grow strictly with every code point. */
  lemma {:induction false} ReachAtBoundary(s: seq<CodePoint>, k: nat)
    requires 0 < k <= |s|
    ensures Reach(s, ByteLen(s[..k])) == k
  {
    PrefixStep(s, k);
    if k > 1 {
      ReachAtBoundary(s[1..], k - 1);
      assert ByteLen(s[1..][..k - 1]) > 0 by {
        PrefixStep(s[1..], k - 1);
      }
    } else {
      assert s[1..][..0] == [];
    }
  }

  lemma {:induction false} ReachInside(s: seq<CodePoint>, k: nat, need: int)
    requires k < |s|
    requires ByteLen(s[..k]) < need <= ByteLen(s[..k + 1])
    ensures Reach(s, need) == k + 1
  {
    PrefixStep(s, k + 1);
    if k > 0 {
      PrefixStep(s, k);
      ReachInside(s[1..], k - 1, need - ByteWidth(s[0]));
    } else {
      assert s[1..][..0] == [];
    }
  }

  lemma {:induction false} ReachPastEnd(s: seq<CodePoint>, need: int)
    requires need > ByteLen(s)
    ensures Reach(s, need) == |s|
  {
    if |s| > 0 {
      ReachPastEnd(s[1..], need - ByteWidth(s[0]));
    }
  }

  lemma {:induction false} ReachMonotone(s: seq<CodePoint>, a: int, b: int)
    requires a <= b
    ensures Reach(s, a) <= Reach(s, b)
  {
    if |s| > 0 && ByteWidth(s[0]) < a {
      ReachMonotone(s[1..], a - ByteWidth(s[0]), b - ByteWidth(s[0]));
    }
  }

  lemma {:induction false} Utf16LenMonotone(s: seq<CodePoint>, i: nat, j: nat)
    requires i <= j <= |s|
    ensures Utf16Len(s[..i]) <= Utf16Len(s[..j])
  {
    if i > 0 {
      PrefixStep(s, i);
      PrefixStep(s, j);
      Utf16LenMonotone(s[1..], i - 1, j - 1);
    }
  }

  lemma CharacterIndexIsPrefixLength(content: seq<CodePoint>, byteIndex: int)
    requires byteIndex != 0
    ensures CharacterIndex(content, byteIndex) == Utf16Len(content[..Reach(content, byteIndex)])
  {
    ScanReaches(content, byteIndex, 0, 0);
  }

  /** `characterIndex` maps the octet offset of every code-point boundary to
      the UTF-16 offset of that boundary. */
  lemma CharacterIndexAtBoundary(content: seq<CodePoint>, k: nat)
    requires k <= |content|
    ensures CharacterIndex(content, ByteLen(content[..k])) == Utf16Len(content[..k])
  {
    if k > 0 {
      ReachAtBoundary(content, k);
      PrefixStep(content, k);
      CharacterIndexIsPrefixLength(content, ByteLen(content[..k]));
    }
  }

  /** An offset inside the encoding of a code point rounds up to its end. */
  lemma CharacterIndexInside(content: seq<CodePoint>, k: nat, byteIndex: int)
    requires k < |content|
    requires ByteLen(content[..k]) < byteIndex < ByteLen(content[..k + 1])
    ensures CharacterIndex(content, byteIndex) == Utf16Len(content[..k + 1])
  {
    ReachInside(content, k, byteIndex);
    CharacterIndexIsPrefixLength(content, byteIndex);
  }

  /** An offset at or past the end yields the whole UTF-16 length, and no
      offset yields more. */
  lemma CharacterIndexBounds(content: seq<CodePoint>, byteIndex: int)
    ensures CharacterIndex(content, byteIndex) <= Utf16Len(content)
    ensures byteIndex >= ByteLen(content) ==> CharacterIndex(content, byteIndex) == Utf16Len(content)
  {
    assert content[..|content|] == content;
    if byteIndex != 0 {
      CharacterIndexIsPrefixLength(content, byteIndex);
      Utf16LenMonotone(content, Reach(content, byteIndex), |content|);
      if byteIndex > ByteLen(content) {
        ReachPastEnd(content, byteIndex);
      } else if byteIndex == ByteLen(content) {
        CharacterIndexAtBoundary(content, |content|);
      }
    }
  }

  /** Over non-negative offsets `characterIndex` never decreases. */
  lemma CharacterIndexMonotone(content: seq<CodePoint>, a: int, b: int)
    requires 0 <= a <= b
    ensures CharacterIndex(content, a) <= CharacterIndex(content, b)
  {
    if a != 0 {
      CharacterIndexIsPrefixLength(content, a);
      CharacterIndexIsPrefixLength(content, b);
      ReachMonotone(content, a, b);
      Utf16LenMonotone(content, Reach(content, a), Reach(content, b));
    }
  }

  /** A negative offset stops the loop after the first code point, so it
      maps past an offset of zero on a non-empty text. */
  lemma CharacterIndexNegative(content: seq<CodePoint>, byteIndex: int)
    requires byteIndex < 0 && |content| > 0
    ensures CharacterIndex(content, byteIndex) == Utf16Width(content[0])
    ensures CharacterIndex(content, byteIndex) > CharacterIndex(content, 0)
  {
    assert content[1..][..0] == [];
  }

  // -----------------------------------------------------------------------
  // byteSlice

  /** `String.prototype.slice` with two indexes already inside the string. */
  function JsSlice(u: seq<int>, from: nat, to: nat): (r: seq<int>)
    requires from <= |u| && to <= |u|
    ensures |r| <= |u|
    ensures from <= to ==> |r| == to - from && forall k :: 0 <= k < |r| ==> r[k] == u[from + k]
    ensures to < from ==> r == []
  {
    if from <= to then u[from..to] else []
  }

  /** `byteSlice(content, start, end)`: the UTF-16 text between the two
      octet offsets; an absent `end` slices to the end. */
  function ByteSlice(content: seq<CodePoint>, start: int, end: Option<int>): (r: seq<int>)
    ensures |r| <= Utf16Len(content)
    ensures end.None? ==> r == Utf16(content)[Utf16Len(content) - |r|..]
  {
    var u := Utf16(content);
    CharacterIndexBounds(content, start);
    var si := CharacterIndex(content, start);
    match end
    case None => u[si..]
    case Some(e) =>
      CharacterIndexBounds(content, e);
      JsSlice(u, si, CharacterIndex(content, e))
  }

  lemma {:induction false} Utf16Concat(a: seq<CodePoint>, b: seq<CodePoint>)
    ensures Utf16(a + b) == Utf16(a) + Utf16(b)
  {
    if |a| > 0 {
      assert (a + b)[1..] == a[1..] + b;
      Utf16Concat(a[1..], b);
    } else {
      assert a + b == b;
    }
  }

  /** Slicing between two code-point boundaries, given as octet offsets,
      yields exactly the UTF-16 text of the code points between them. */
  lemma ByteSliceAtBoundaries(content: seq<CodePoint>, i: nat, j: nat)
    requires i <= j <= |content|
    ensures ByteSlice(content, ByteLen(content[..i]), Some(ByteLen(content[..j]))) == Utf16(content[i..j])
    ensures ByteSlice(content, ByteLen(content[..i]), None) == Utf16(content[i..])
  {
    CharacterIndexAtBoundary(content, i);
    CharacterIndexAtBoundary(content, j);
    assert content == content[..i] + content[i..j] + content[j..];
    Utf16Concat(content[..i] + content[i..j], content[j..]);
    Utf16Concat(content[..i], content[i..j]);
    assert content == content[..i] + content[i..];
    Utf16Concat(content[..i], content[i..]);
  }
}

=== FILE: wrappers.dfy ===
/** Failure-compatible wrappers used across the model: `Option` for the
    source's `undefined`/`null`, `Result` for a call that may throw. */
module Wrappers {

  datatype Option<+T> = None | Some(value: T) {

    /** The value if present, otherwise `default` (the `??` operator). */
    function GetOr(default: T): T {
      match this
      case Some(v) => v
      case None => default
    }
  }

  datatype Result<+R, +E> = Success(value: R) | Failure(error: E) {

    predicate IsFailure() {
      Failure?
    }

    function PropagateFailure<U>(): Result<U, E>
      requires Failure?
    {
      Failure(error)
    }

    function Extract(): R
      requires Success?
    {
      value
    }
  }
}
